=== FILE: README.md ===
# clusterMaker2 matrices in Dafny

This project models the in-memory matrix that clusterMaker2's clustering
algorithms share. It covers `ColtMatrix` and its Cytoscape-aware subclass
`CyColtMatrix`.

- **Backing store.** A `ColtMatrix` keeps its doubles in a 2-D store where NaN
  means "missing". It also holds optional row and column labels, a
  widen-only cache of the smallest and largest value written, and
  `symmetric`/`transposed` flags.
- **Index.** An optional index array translates every logical row or column
  coordinate before the store is touched. `submatrix(int[])` uses it to make
  zero-copy views.
- **Triangle-aware loops.** On a symmetric matrix, `toArray` and
  `setMissingToZero` visit only the upper triangle and mirror what they
  write.
- **Other operations.** `adjustDiagonals` replaces each diagonal cell with its
  row's maximum. `getRank` computes mid-ranks of a row's present values.
  `getDistanceMatrix` builds the symmetric matrix of a metric over the rows.
- **`CyColtMatrix`.** Adds the network and the node behind each row and
  column. Node arrays are lazily allocated. It also adds a `copy(Matrix)`
  that shares the argument's store, a deep `copy()`, and `sortByRowLabels`,
  which reorders labels, nodes and rows together.

Modelling choices:

- **Values.** Doubles are reals and NaN is `None`, so cells are `Option<real>`.
  A cell of a fresh sparse store reads `Some(0.0)`. `Double.MIN_VALUE` and
  `Double.MAX_VALUE` are written out as exact reals.
- **Classes and arrays.** The backing store is an `array2`, labels and nodes
  are nullable arrays of `Option` values, and the index is a nullable
  `array<int>`. Stores and label arrays are shared by reference where the
  Java code shares them (`submatrix(int[])`, `copy(Matrix)`), with two
  exceptions listed under "Left out": the range `submatrix` copies its
  block, and `getRowNodes`/`getColumnNodes` return the nodes' contents
  rather than a live list.
- **The subclass.** `CyColtMatrix` holds its `ColtMatrix` in a field
  (`matrix`) instead of extending it.
- **Helpers not part of this model.** `MatrixUtils.indexSort` is not part of
  this model. Its result is a parameter `order`, the ascending argsort
  (`order[i]` is the position of the i-th smallest item). This is the
  convention `getRank` relies on when it writes `rank[index[i]] = i`.
- **Distance metrics.** `DistanceMetric` implementations are not part of this
  model either. The metric is a function of the two row numbers, with `None`
  standing for a NaN distance.

Modules:

- `Options` holds `Option`.
- `Cells` holds store snapshots, the present values of a row and the row
  maximum.
- `JavaArrays` models `Arrays.copyOf`.
- `Permutations` holds gather/scatter by a permutation and the pigeonhole
  facts behind them.
- `Ranking` gives a reference definition of mid-ranks.
- `Colt` models `ColtMatrix`.
- `CyMatrix` models `CyColtMatrix`.

## Model

Source paths are relative to the repository root.

| member | source | states |
|---|---|---|
| Colt.ColtMatrix.Empty | src/main/java/edu/ucsf/rbvi/clusterMaker2/internal/algorithms/matrix/ColtMatrix.java:57-60 | an empty 0x0 matrix with no labels and no index, not symmetric or transposed, bounds at their sentinels (min = Double.MAX_VALUE, max = Double.MIN_VALUE) |
| Colt.ColtMatrix.constructor | src/main/java/edu/ucsf/rbvi/clusterMaker2/internal/algorithms/matrix/ColtMatrix.java:80-88 | a fresh rows x columns store whose every cell reads 0.0; fresh, distinct label arrays of the right lengths holding nulls; no index; sentinel bounds |
| Colt.ColtMatrix.Filled | src/main/java/edu/ucsf/rbvi/clusterMaker2/internal/algorithms/matrix/ColtMatrix.java:90-93 | as the (rows, columns) constructor, but every cell holds the initial value and the bounds are not widened by it |
| Colt.ColtMatrix.Copy | src/main/java/edu/ucsf/rbvi/clusterMaker2/internal/algorithms/matrix/ColtMatrix.java:62-78 | the copy has the same cells, flags, bounds, labels and index (null exactly where the original has null), in a fresh store and fresh label and index arrays, the two label arrays being distinct objects |
| Colt.ColtMatrix.NRows | src/main/java/edu/ucsf/rbvi/clusterMaker2/internal/algorithms/matrix/ColtMatrix.java:203-207 | `nRows()` is the index length once an index is present, and the stored row count otherwise |
| Colt.ColtMatrix.DoubleValue | src/main/java/edu/ucsf/rbvi/clusterMaker2/internal/algorithms/matrix/ColtMatrix.java:237-244 | `doubleValue`/`getValue` read physical cell (row, column) without an index and (index[row], index[column]) with one; NaN reads as missing |
| Colt.ColtMatrix.HasValue | src/main/java/edu/ucsf/rbvi/clusterMaker2/internal/algorithms/matrix/ColtMatrix.java:296-301 | `hasValue` is false exactly when the cell read through the index is missing (NaN) |
| Colt.ColtMatrix.GetRowLabel | src/main/java/edu/ucsf/rbvi/clusterMaker2/internal/algorithms/matrix/ColtMatrix.java:360-364 | the label of row `row`, translated through the index when there is one |
| Colt.ColtMatrix.GetColumnLabel | src/main/java/edu/ucsf/rbvi/clusterMaker2/internal/algorithms/matrix/ColtMatrix.java:318-322 | the label of column `column`, translated through the index when there is one |
| Colt.ColtMatrix.ColStart | src/main/java/edu/ucsf/rbvi/clusterMaker2/internal/algorithms/matrix/ColtMatrix.java:757-760 | the triangle-aware loops start each row at the diagonal on a symmetric matrix and at column 0 otherwise |
| Colt.ColtMatrix.SetValue | src/main/java/edu/ucsf/rbvi/clusterMaker2/internal/algorithms/matrix/ColtMatrix.java:223-301 | after a write, `doubleValue`/`getValue` at that logical coordinate return the value and `hasValue` is true iff the value is not NaN/null; only the translated physical cell changes; the bounds never narrow, a finite value lies within them afterwards (they become min/max with it), and a NaN/null write leaves them unchanged |
| Colt.ColtMatrix.SetRowLabel | src/main/java/edu/ucsf/rbvi/clusterMaker2/internal/algorithms/matrix/ColtMatrix.java:360-376 | `getRowLabel(row)` returns the label just set; exactly the label of the index-translated row changes |
| Colt.ColtMatrix.SetColumnLabel | src/main/java/edu/ucsf/rbvi/clusterMaker2/internal/algorithms/matrix/ColtMatrix.java:318-334 | `getColumnLabel(column)` returns the label just set; exactly the label of the index-translated column changes |
| Colt.ColtMatrix.SetRowLabels | src/main/java/edu/ucsf/rbvi/clusterMaker2/internal/algorithms/matrix/ColtMatrix.java:383-385 | the row labels become a fresh array holding the list, in order |
| Colt.ColtMatrix.SetColumnLabels | src/main/java/edu/ucsf/rbvi/clusterMaker2/internal/algorithms/matrix/ColtMatrix.java:341-343 | the column labels become a fresh array holding the list, in order |
| Colt.ColtMatrix.Index | src/main/java/edu/ucsf/rbvi/clusterMaker2/internal/algorithms/matrix/ColtMatrix.java:562-574 | a non-symmetric matrix keeps its index; a symmetric one gets a fresh identity index of length nRows, through which every logical cell reads the physical cell with the same coordinates, and `nRows()` (the index length once there is one, ColtMatrix.java:203-207) stays nRows |
| Colt.ColtMatrix.Submatrix | src/main/java/edu/ucsf/rbvi/clusterMaker2/internal/algorithms/matrix/ColtMatrix.java:580-593 | the view shares the store and both label arrays and carries the given index, so its logical (r, c) reads physical (idx[r], idx[c]); `nRows()` of the view is the index length; flags and bounds are copied |
| Colt.ViewWriteIsShared | src/main/java/edu/ucsf/rbvi/clusterMaker2/internal/algorithms/matrix/ColtMatrix.java:580-593 | a write through a view at logical (r, c) lands in the original's store at (idx[r], idx[c]), and the original, indexed or not, reads it at every logical coordinate that translates there |
| Colt.CopyIsIndependent | src/main/java/edu/ucsf/rbvi/clusterMaker2/internal/algorithms/matrix/ColtMatrix.java:631-633 | a write into `copy()`'s result, indexed or not, reads back on the copy and leaves the original's cells, labels and index unchanged |
| Colt.ColtMatrix.DenseFinal | src/main/java/edu/ucsf/rbvi/clusterMaker2/internal/algorithms/matrix/ColtMatrix.java:416-426 | once the triangle-aware loop that starts each row at `colStart(row)` has finished, a non-symmetric matrix has every cell filled from its logical cell; a symmetric one has every (i, j) with i <= j and its mirror (j, i) filled from (i, j) |
| Colt.ColtMatrix.ToArray | src/main/java/edu/ucsf/rbvi/clusterMaker2/internal/algorithms/matrix/ColtMatrix.java:416-426 | a fresh nRows x nColumns array; without symmetry it holds every logical cell; with symmetry the upper triangle holds its logical cells, each mirror cell holds the same value, and rows past the last column keep the initial 0.0 |
| Colt.ColtMatrix.SetMissingToZero | src/main/java/edu/ucsf/rbvi/clusterMaker2/internal/algorithms/matrix/ColtMatrix.java:493-503 | afterwards no visited cell is missing, a visited cell that was present keeps its value, and a visited cell that was missing reads 0.0; with symmetry the mirror of a missing upper cell also reads 0.0 (corrected version; see Findings) |
| Colt.SetMissingToZeroAsWritten | src/main/java/edu/ucsf/rbvi/clusterMaker2/internal/algorithms/matrix/ColtMatrix.java:493-503 | the loop as written, on a square store with an index: the test reads through the index and the writes do not; the result is a square store |
| Colt.SetMissingToZeroAsWrittenIdentity | src/main/java/edu/ucsf/rbvi/clusterMaker2/internal/algorithms/matrix/ColtMatrix.java:493-503 | with the identity index the loop as written gives what the corrected `SetMissingToZero` promises: visited missing cells read 0.0, visited present cells keep their value, and on a symmetric store the mirror of a zeroed cell is zeroed |
| Colt.SetMissingToZeroAsWrittenCounterexample | src/main/java/edu/ucsf/rbvi/clusterMaker2/internal/algorithms/matrix/ColtMatrix.java:496-499 | with index [1, 0] on a symmetric 2x2 store, the loop as written overwrites the present 5.0 at (0, 0) with 0.0 and leaves the missing cell (1, 1) missing |
| Colt.ColtMatrix.PhysicalRowMax | src/main/java/edu/ucsf/rbvi/clusterMaker2/internal/algorithms/matrix/ColtMatrix.java:510-513 | the scan yields the row maximum: at least 0.0, at least every present cell, and either 0.0 or a present cell |
| Colt.ColtMatrix.AdjustDiagonals | src/main/java/edu/ucsf/rbvi/clusterMaker2/internal/algorithms/matrix/ColtMatrix.java:508-516 | every diagonal cell becomes the maximum of 0.0 and the present values of its old row, the old diagonal included; every off-diagonal cell is unchanged |
| Cells.RowMax | src/main/java/edu/ucsf/rbvi/clusterMaker2/internal/algorithms/matrix/ColtMatrix.java:510-513 | the row maximum is at least 0.0 and every present value, and is either 0.0 or one of the present values |
| Colt.ColtMatrix.MaskedRow | src/main/java/edu/ucsf/rbvi/clusterMaker2/internal/algorithms/matrix/ColtMatrix.java:526-531 | the first nVals slots of the fresh buffer are the row's present values in column order |
| Colt.ColtMatrix.GetRank | src/main/java/edu/ucsf/rbvi/clusterMaker2/internal/algorithms/matrix/ColtMatrix.java:524-557 | null exactly when the row has no present values; otherwise one rank per present value, in column order, equal to the reference mid-rank (smaller values + half the other equal values) |
| Colt.RunEnd | src/main/java/edu/ucsf/rbvi/clusterMaker2/internal/algorithms/matrix/ColtMatrix.java:548-549 | the inner scan stops at the first sorted position after i whose value differs from the run's, or at nVals; every position in between holds the run's value |
| Colt.FillRun | src/main/java/edu/ucsf/rbvi/clusterMaker2/internal/algorithms/matrix/ColtMatrix.java:552 | every sorted position of the run gets the averaged rank, and every other position keeps its rank |
| Colt.AverageTies | src/main/java/edu/ucsf/rbvi/clusterMaker2/internal/algorithms/matrix/ColtMatrix.java:540-554 | from the positional ranks of a sorting order, the tie loop yields the mid-ranks of the buffer's values |
| Ranking.RunCounts | src/main/java/edu/ucsf/rbvi/clusterMaker2/internal/algorithms/matrix/ColtMatrix.java:544-553 | for a maximal run order[i..j) of equal values in sorted order, i values are smaller and j - i are equal, so the run's value rank[index[i]] + (m-1)/2 is its mid-rank |
| Ranking.MidRankBounds | src/main/java/edu/ucsf/rbvi/clusterMaker2/internal/algorithms/matrix/ColtMatrix.java:540-554 | every rank lies in [0, nVals - 1] |
| Ranking.MidRankStrictlyMonotonic | src/main/java/edu/ucsf/rbvi/clusterMaker2/internal/algorithms/matrix/ColtMatrix.java:540-554 | a strictly smaller value gets a strictly smaller rank |
| Ranking.MidRanksExample | src/main/java/edu/ucsf/rbvi/clusterMaker2/internal/algorithms/matrix/ColtMatrix.java:524-557 | the values 5, 1, 1, 3 rank as 3, 0.5, 0.5, 2 |
| Colt.ColtMatrix.GetDistanceMatrix | src/main/java/edu/ucsf/rbvi/clusterMaker2/internal/algorithms/matrix/ColtMatrix.java:393-408 | a fresh nRows x nRows symmetric, non-transposed matrix without index; for i <= j both (i, j) and (j, i) hold metric(i, j); row and column labels are two fresh, distinct copies of the row labels; every finite distance lies within the result's bounds |
| Colt.FillDistance | src/main/java/edu/ucsf/rbvi/clusterMaker2/internal/algorithms/matrix/ColtMatrix.java:400-406 | after the loop over all rows, for i <= j both (i, j) and (j, i) hold metric(i, j), and the bounds cover every finite distance |
| Colt.FillDistanceRow | src/main/java/edu/ucsf/rbvi/clusterMaker2/internal/algorithms/matrix/ColtMatrix.java:401-406 | one row of the distance loop writes metric(row, column) at (row, column) and its mirror for every column from row on, and widens the bounds to cover them |
| Colt.ColtMatrix.SubmatrixRange | src/main/java/edu/ucsf/rbvi/clusterMaker2/internal/algorithms/matrix/ColtMatrix.java:604-624 | a rows x cols matrix holding the block at (row, col); row and column labels are fresh, distinct arrays; row labels are the block's row labels; column labels are the block's column labels, or nulls when the block has no rows or no columns; bounds at their sentinels; `transposed` is kept; `symmetric` only when the source is and the block is square on the diagonal |
| Colt.CopyBlockLabels | src/main/java/edu/ucsf/rbvi/clusterMaker2/internal/algorithms/matrix/ColtMatrix.java:609-615 | the label loop of the range `submatrix`: row r gets the source's label rowLabels[row + r]; the column labels are the source's columnLabels[col..col + cols] when the block has a row, and otherwise keep their null entries |
| JavaArrays.Resized | src/main/java/edu/ucsf/rbvi/clusterMaker2/internal/algorithms/matrix/CyColtMatrix.java:222 | `Arrays.copyOf(a, n)` holds the first n items of a, padded with nulls |
| CyMatrix.CyColtMatrix.Empty | src/main/java/edu/ucsf/rbvi/clusterMaker2/internal/algorithms/matrix/CyColtMatrix.java:26-29 | an empty matrix of the given network with no node arrays |
| CyMatrix.CyColtMatrix.constructor | src/main/java/edu/ucsf/rbvi/clusterMaker2/internal/algorithms/matrix/CyColtMatrix.java:31-34 | a fresh rows x columns matrix of the network (as the base constructor) with no node arrays |
| CyMatrix.CyColtMatrix.Copy | src/main/java/edu/ucsf/rbvi/clusterMaker2/internal/algorithms/matrix/CyColtMatrix.java:36-43 | a deep copy of the matrix on the same network, with independent copies of the node arrays having the same contents (null stays null) |
| CyMatrix.CyColtMatrix.GetRowNodes | src/main/java/edu/ucsf/rbvi/clusterMaker2/internal/algorithms/matrix/CyColtMatrix.java:99-103 | null exactly when the row nodes were never set; otherwise their contents in order |
| CyMatrix.CyColtMatrix.GetColumnNodes | src/main/java/edu/ucsf/rbvi/clusterMaker2/internal/algorithms/matrix/CyColtMatrix.java:161-165 | null exactly when the column nodes were never set; otherwise their contents in order |
| CyMatrix.CyColtMatrix.SetRowNode | src/main/java/edu/ucsf/rbvi/clusterMaker2/internal/algorithms/matrix/CyColtMatrix.java:87-92 | an absent row-node array is first allocated with nRows() null slots; afterwards exactly slot `row` holds the node and every other slot is unchanged |
| CyMatrix.CyColtMatrix.SetColumnNode | src/main/java/edu/ucsf/rbvi/clusterMaker2/internal/algorithms/matrix/CyColtMatrix.java:139-144 | an absent column-node array is first allocated with nColumns() null slots; afterwards exactly slot `column` holds the node and every other slot is unchanged |
| CyMatrix.CyColtMatrix.CopyMatrix | src/main/java/edu/ucsf/rbvi/clusterMaker2/internal/algorithms/matrix/CyColtMatrix.java:202-229 | the result shares the argument's store, copies its flags, bounds, labels and index into fresh arrays, takes this matrix's row nodes resized to the argument's row count, and its column nodes resized only when the argument has more than one column |
| CyMatrix.TakeOver | src/main/java/edu/ucsf/rbvi/clusterMaker2/internal/algorithms/matrix/CyColtMatrix.java:210-220 | the new matrix shares the store and receives the flags, bounds and fresh copies of the labels and index that are present |
| CyMatrix.CyColtMatrix.CopyDeep | src/main/java/edu/ucsf/rbvi/clusterMaker2/internal/algorithms/matrix/CyColtMatrix.java:236-238 | `copy()` is the copy constructor: a fresh matrix with the same cells, flags, bounds, labels and index in fresh (and mutually distinct) arrays, on the same network, with node arrays of the same contents in fresh arrays |
| CyMatrix.CyColtMatrix.GetDistanceMatrix | src/main/java/edu/ucsf/rbvi/clusterMaker2/internal/algorithms/matrix/CyColtMatrix.java:185-193 | the base class's distance values, symmetry, labels and bounds, in a fresh matrix with a fresh store and fresh, distinct label arrays; row nodes are this matrix's row nodes resized to nRows when present, and column nodes likewise only when nRows > 1 |
| CyMatrix.CyColtMatrix.SortByRowLabelsAsWritten | src/main/java/edu/ucsf/rbvi/clusterMaker2/internal/algorithms/matrix/CyColtMatrix.java:240-267 | the loop as written: old row r's label, node and every logical cell end up at row order[r] of fresh arrays; the multiset of row labels is kept; column count, column labels and column nodes are untouched |
| CyMatrix.CyColtMatrix.ScatterRows | src/main/java/edu/ucsf/rbvi/clusterMaker2/internal/algorithms/matrix/CyColtMatrix.java:253-263 | the row loop as written builds the scatter of the labels and nodes and puts old logical row r at row order[r] |
| CyMatrix.SortByRowLabelsAsWrittenCounterexample | src/main/java/edu/ucsf/rbvi/clusterMaker2/internal/algorithms/matrix/CyColtMatrix.java:256-258 | row labels 2, 3, 1 with their sorting order [2, 0, 1] come out as 3, 1, 2, which is not ascending |
| CyMatrix.CyColtMatrix.SortByRowLabels | src/main/java/edu/ucsf/rbvi/clusterMaker2/internal/algorithms/matrix/CyColtMatrix.java:240-267 | corrected version: new row r takes old row order[r]'s label, node and every logical cell; the multiset of row labels is kept; columns untouched (see Findings) |
| CyMatrix.CyColtMatrix.GatherRows | src/main/java/edu/ucsf/rbvi/clusterMaker2/internal/algorithms/matrix/CyColtMatrix.java:253-263 | the corrected row loop builds the gather of the labels and nodes and puts old logical row order[r] at row r |
| CyMatrix.SortByRowLabelsSorts | src/main/java/edu/ucsf/rbvi/clusterMaker2/internal/algorithms/matrix/CyColtMatrix.java:240-267 | given the order that sorts the row labels' keys, the corrected `sortByRowLabels` leaves the row labels in ascending key order and keeps every label |
| CyMatrix.SortedRowsAscending | src/main/java/edu/ucsf/rbvi/clusterMaker2/internal/algorithms/matrix/CyColtMatrix.java:240-251 | gathering by the order that sorts the label keys puts the labels in ascending key order and keeps every label |
| CyMatrix.CopyLogicalRow | src/main/java/edu/ucsf/rbvi/clusterMaker2/internal/algorithms/matrix/CyColtMatrix.java:259-262 | the inner loop copies logical row src into row dst of the new store and leaves its other rows unchanged |
| Permutations.GatherScatter | src/main/java/edu/ucsf/rbvi/clusterMaker2/internal/algorithms/matrix/CyColtMatrix.java:256-258 | scattering by a permutation is undone by gathering by it, so the as-written loop applies the inverse of the sorting order |
| Permutations.ScatterMultiset | src/main/java/edu/ucsf/rbvi/clusterMaker2/internal/algorithms/matrix/CyColtMatrix.java:256-258 | scattering by a permutation keeps every item with its multiplicity |
| Permutations.GatherMultiset | src/main/java/edu/ucsf/rbvi/clusterMaker2/internal/algorithms/matrix/CyColtMatrix.java:256-258 | gathering by a permutation keeps every item with its multiplicity |

## Left out

- Random-fill constructor `ColtMatrix(rows, columns, DISTRIBUTION)`: it draws from Colt's random number generators.
- `SimpleMatrix` conversions: the constructors from `SimpleMatrix`/`CySimpleMatrix`, `getSimpleMatrix` and the `SimpleMatrix` branch of `copy(Matrix)`. `SimpleMatrix` is not part of this model.
- `ColtMatrix(ColtMatrix, DoubleMatrix2D)`, `like`, `initialize`, `copyDataFromMatrix` and `create2DMatrix`: these are outside the core modelled here.
- `updateMinMax`: it depends on Colt's min/max location search, whose NaN handling is not part of this model.
- `printMatrix`, `printMatrixInfo` and `writeMatrix`: output formatting and file I/O.
- `getRow`, `getColumn` and the plain field getters and setters (`getMaxValue`, `isSymmetrical`, `setTransposed`, `getNetwork`, `setRowNodes`, `getRowNode`, `isAssymetricalEdge` and the like): they only read or assign one field.
- `nThreads` and the `ColtOps` helper object: these are not part of this model.
- Floating point: NaN is `None`, so infinities, negative zero and rounding are not modelled, and comparisons are exact real comparisons.
- Colt.ColtMatrix.GetDistanceMatrix: the parallel row loop runs sequentially. The unsynchronised bound updates it causes in the original are not modelled. The metric is a function of the two row numbers and does not see the matrices.
- Colt.ColtMatrix.SubmatrixRange: Colt's `viewPart` shares the parent's store. The model copies the block, so a later write through either matrix is not seen by the other.
- Colt.ColtMatrix.GetRank: the sorting permutation is a parameter that must sort the present values. The array returned by `indexSort` is not modelled.
- CyMatrix.CyColtMatrix.SortByRowLabels: the `isNumeric` key choice is abstracted into the parameter `order`. This covers label parsing with `Double.parseDouble`, null labels read as 0.0, and string comparison.
- CyMatrix.CyColtMatrix.SortByRowLabels: it requires the row-label array to have exactly nRows slots and the row-node array to be present. The original throws otherwise, except when nRows is 0 (the row loop never runs, so a missing node array is not touched) or when a longer label array happens to sort its first nRows positions among themselves.
- CyMatrix.CyColtMatrix.SortByRowLabelsAsWritten: the same requirements as `SortByRowLabels`.
- Colt.SetMissingToZeroAsWritten: the as-written loop is modelled on a square store, which is where its index translation is defined for every visited cell.
- Colt.ColtMatrix.AdjustDiagonals: it requires nRows <= nColumns. For a row at or past nColumns the original's diagonal write is an unchecked `setQuick(row, row)` whose target depends on Colt's storage layout and is not modelled.
- Colt.ColtMatrix.SetMissingToZero: a symmetric matrix must have nColumns <= nRows. In the original the mirrored `setQuick(col, row)` with col >= nRows is an unchecked write whose target depends on Colt's storage layout and is not modelled.
- Colt.ColtMatrix.Empty: the original leaves the store null, so `copy()`, `toArray()` or any cell access on such a matrix throws NullPointerException. The model gives it an empty 0x0 store, on which those operations succeed.
- CyMatrix.CyColtMatrix.Empty: built on `Colt.ColtMatrix.Empty`, so it has the same empty store instead of a null one.
- Colt.ColtMatrix.Index: the warning logged for a non-symmetric matrix is not modelled; logging is output.
- CyMatrix.CyColtMatrix.GetRowNodes: `Arrays.asList` returns a list backed by the node array. The model returns the contents at the time of the call, so later writes to the array, and writes through the list, are not reflected.
- CyMatrix.CyColtMatrix.GetColumnNodes: the same snapshot instead of a backed list as `GetRowNodes`.
- Exceptions: where the original throws (NullPointerException on a null label or node array, IndexOutOfBoundsException from `viewPart` for a block outside the store, ArrayIndexOutOfBoundsException for a label slot, a node slot or, once an index is installed, an index entry out of range), the model instead requires the call to be in range, so those exception paths are not modelled.
- Unchecked cell access: without an index, or through an installed index entry that points outside the store, a cell outside the store goes to Colt's unchecked `getQuick`/`setQuick`, whose result is not modelled; `InRange` excludes it.
- Colt.ColtMatrix.ToArray: a symmetric matrix must have nColumns <= nRows, because the mirrored write goes out of bounds otherwise. Every visited logical cell must translate into the store.

## Findings

| source | as written | input that shows it | evidently intended | confidence | as-written member | corrected member |
|---|---|---|---|---|---|---|
| src/main/java/edu/ucsf/rbvi/clusterMaker2/internal/algorithms/matrix/ColtMatrix.java:493-503 | `setMissingToZero` tests the cell through the index (`doubleValue`) but writes the physical cell (`setQuick(row, col)`) | symmetric 2x2 store [[5, 1], [1, NaN]] with index [1, 0]: logical (0, 0) reads the NaN at physical (1, 1) and overwrites the 5 at physical (0, 0); physical (1, 1) stays NaN | the test and the write address the same cell, so every visited missing cell becomes 0 and present values are kept | medium, not executed; with no index, or the identity index, both readings coincide (`Colt.SetMissingToZeroAsWrittenIdentity`) | Colt.SetMissingToZeroAsWritten, Colt.SetMissingToZeroAsWrittenCounterexample | Colt.ColtMatrix.SetMissingToZero |
| src/main/java/edu/ucsf/rbvi/clusterMaker2/internal/algorithms/matrix/CyColtMatrix.java:256-263 | `sortByRowLabels` moves old row r to row `index[r]` (a scatter), although `indexSort` returns positions in ascending order, as `getRank` (ColtMatrix.java:537-541) uses it | row labels "2", "3", "1": the sorting order is [2, 0, 1] and the rows come out "3", "1", "2" | new row r takes old row `index[r]` (a gather), so the rows come out in ascending label order | medium, not executed; it depends on the argsort convention of `indexSort`, which is not part of this model | CyMatrix.CyColtMatrix.SortByRowLabelsAsWritten, CyMatrix.SortByRowLabelsAsWrittenCounterexample | CyMatrix.CyColtMatrix.SortByRowLabels, CyMatrix.SortedRowsAscending |

=== FILE: Cells.dfy ===
/**
  * Cell-level vocabulary shared by the matrix classes: snapshots of the
  * backing store, the finite values of a row, and a row's maximum as the
  * diagonal adjustment computes it.
  */
module Cells {
  import opened Options

  /** The contents of a 2-D array as rows of cells. */
  ghost function Snapshot<T>(a: array2<T>): (g: seq<seq<T>>)
    reads a
    ensures |g| == a.Length0
    ensures forall i :: 0 <= i < |g| ==> |g[i]| == a.Length1
    ensures forall i, j :: 0 <= i < a.Length0 && 0 <= j < a.Length1 ==> g[i][j] == a[i, j]
  {
    seq(a.Length0, i reads a requires 0 <= i < a.Length0 =>
      seq(a.Length1, j reads a requires 0 <= j < a.Length1 => a[i, j]))
  }

  /** Two rectangular grids with the same cells are equal. */
  lemma GridExt<T>(g: seq<seq<T>>, h: seq<seq<T>>)
    requires |g| == |h|
    requires forall i :: 0 <= i < |g| ==> |g[i]| == |h[i]|
    requires forall i, j :: 0 <= i < |g| && 0 <= j < |g[i]| ==> g[i][j] == h[i][j]
    ensures g == h
  {
    forall i | 0 <= i < |g|
      ensures g[i] == h[i]
    {
    }
  }

  /** A deep copy of a backing store (Colt's `copy()` of the 2-D matrix). */
  method CopyGrid<T>(src: array2<T>) returns (dst: array2<T>)
    ensures fresh(dst)
    ensures dst.Length0 == src.Length0 && dst.Length1 == src.Length1
    ensures Snapshot(dst) == Snapshot(src)
  {
    dst := new T[src.Length0, src.Length1]((i, j) reads src
      requires 0 <= i < src.Length0 && 0 <= j < src.Length1 => src[i, j]);
    GridExt(Snapshot(dst), Snapshot(src));
  }

  /** The finite values of a row of cells, in column order. */
  function Present(s: seq<Option<real>>): (r: seq<real>)
    ensures |r| <= |s|
  {
    if s == [] then []
    else Present(s[..|s| - 1]) + (if s[|s| - 1].Some? then [s[|s| - 1].value] else [])
  }

  /** The finite values are exactly the values of the row's present cells. */
  lemma {:induction false} PresentMembers(s: seq<Option<real>>)
    ensures forall v :: v in Present(s) <==> Some(v) in s
  {
    if s != [] {
      var init := s[..|s| - 1];
      PresentMembers(init);
      assert s == init + [s[|s| - 1]];
    }
  }

  /** Appending a cell appends its value when it is finite. */
  lemma PresentSnoc(s: seq<Option<real>>, c: Option<real>)
    ensures Present(s + [c]) == Present(s) + (if c.Some? then [c.value] else [])
  {
    assert (s + [c])[..|s|] == s;
  }

  /** Extending a prefix of a row by one cell extends its values by that cell's value. */
  lemma PresentPrefix(s: seq<Option<real>>, k: int)
    requires 0 <= k < |s|
    ensures Present(s[..k + 1]) == Present(s[..k]) + (if s[k].Some? then [s[k].value] else [])
  {
    assert s[..k + 1] == s[..k] + [s[k]];
    PresentSnoc(s[..k], s[k]);
  }

  /**
    * The largest of 0.0 and the finite values of a row, scanning from the
    * first column (a missing cell never compares greater).
    */
  function RowMax(s: seq<Option<real>>): (m: real)
    ensures 0.0 <= m
    ensures forall j :: 0 <= j < |s| && s[j].Some? ==> s[j].value <= m
    ensures m == 0.0 || Some(m) in s
  {
    if s == [] then 0.0
    else
      var init := s[..|s| - 1];
      var m := RowMax(init);
      assert forall j :: 0 <= j < |init| ==> init[j] == s[j];
      match s[|s| - 1]
      case Some(v) => if v > m then v else m
      case None => m
  }
}

=== FILE: ColtMatrix.dfy ===
/**
  * The label-aware numeric matrix every clusterer builds on
  * (`ColtMatrix`): a 2-D backing store of doubles in which NaN means
  * "missing", optional row and column labels, a widen-only cache of the
  * smallest and largest value written, flags for symmetric and transposed
  * matrices, and an optional index array through which every row and
  * column coordinate is translated before the store is touched.
  *
  * Doubles are modelled as reals and NaN as `None`. The backing store is a
  * shared `array2`: a view made by `Submatrix` holds the very same array,
  * so writes through either are seen by both.
  */
module Colt {
  import opened Options
  import opened Cells
  import opened Permutations
  import opened Ranking
  import JavaArrays

  /** A row or column label; `None` is a null label. */
  type Label = Option<string>

  /** `Double.MIN_VALUE`: the smallest POSITIVE double, 2^-1074. */
  const DoubleMinValue: real := 1.0 / 202402253307310618352495346718917307049556649764142118356901358027430339567995346891960383701437124495187077864316811911389808737385793476867013399940738509921517424276566361364466907742093216341239767678472745068562007483424692698618103355649159556340810056512358769552333414615230502532186327508646006263307707741093494784.0

  /** `Double.MAX_VALUE`: (2 - 2^-52) * 2^1023. */
  const DoubleMaxValue: real := 179769313486231570814527423731704356798070567525844996598917476803157260780028538760589558632766878171540458953514382464234321326889464182768467546703537516986049910576551282076245490090389328944075868508455133942304583236903222948165808559332123348274797826204144723168738177180919299881250404026184124858368.0

  function Min(a: real, b: real): real { if a < b then a else b }
  function Max(a: real, b: real): real { if a > b then a else b }

  class ColtMatrix {
    var data: array2<Option<real>>
    var index: array?<int>
    var nRows: int
    var nColumns: int
    var rowLabels: array?<Label>
    var columnLabels: array?<Label>
    var maxValue: real
    var minValue: real
    var symmetric: bool
    var transposed: bool

    /** The physical dimensions are those of the backing store. */
    ghost predicate Valid()
      reads this
    {
      data.Length0 == nRows && data.Length1 == nColumns
    }

    /** `ColtMatrix()`: no store yet (an empty one here), no labels, no index. */
    constructor Empty()
      ensures Valid() && fresh(data)
      ensures nRows == 0 && nColumns == 0
      ensures index == null && rowLabels == null && columnLabels == null
      ensures maxValue == DoubleMinValue && minValue == DoubleMaxValue
      ensures !symmetric && !transposed
    {
      data := new Option<real>[0, 0];
      index := null;
      nRows, nColumns := 0, 0;
      rowLabels, columnLabels := null, null;
      maxValue, minValue := DoubleMinValue, DoubleMaxValue;
      symmetric, transposed := false, false;
    }

    /**
      * `ColtMatrix(rows, columns)`: a fresh sparse store, which reads 0.0
      * (not missing) in every cell, and null labels.
      */
    constructor (rows: nat, columns: nat)
      ensures Valid() && fresh(data)
      ensures nRows == rows && nColumns == columns
      ensures forall i, j :: 0 <= i < rows && 0 <= j < columns ==> data[i, j] == Some(0.0)
      ensures rowLabels != null && fresh(rowLabels) && rowLabels[..] == seq(rows, _ => None)
      ensures columnLabels != null && fresh(columnLabels) && columnLabels[..] == seq(columns, _ => None)
      ensures rowLabels != columnLabels && index == null
      ensures maxValue == DoubleMinValue && minValue == DoubleMaxValue
      ensures !symmetric && !transposed
    {
      data := new Option<real>[rows, columns]((_, _) => Some(0.0));
      nRows, nColumns := rows, columns;
      rowLabels := new Label[rows](_ => None);
      columnLabels := new Label[columns](_ => None);
      index := null;
      maxValue, minValue := DoubleMinValue, DoubleMaxValue;
      symmetric, transposed := false, false;
    }

    /**
      * `ColtMatrix(rows, columns, initialValue)`: every cell holds the
      * initial value; filling does not touch the min/max cache.
      */
    constructor Filled(rows: nat, columns: nat, initialValue: Option<real>)
      ensures Valid() && fresh(data)
      ensures nRows == rows && nColumns == columns
      ensures forall i, j :: 0 <= i < rows && 0 <= j < columns ==> data[i, j] == initialValue
      ensures rowLabels != null && fresh(rowLabels) && rowLabels[..] == seq(rows, _ => None)
      ensures columnLabels != null && fresh(columnLabels) && columnLabels[..] == seq(columns, _ => None)
      ensures rowLabels != columnLabels && index == null
      ensures maxValue == DoubleMinValue && minValue == DoubleMaxValue
      ensures !symmetric && !transposed
    {
      data := new Option<real>[rows, columns]((_, _) => initialValue);
      nRows, nColumns := rows, columns;
      rowLabels := new Label[rows](_ => None);
      columnLabels := new Label[columns](_ => None);
      index := null;
      maxValue, minValue := DoubleMinValue, DoubleMaxValue;
      symmetric, transposed := false, false;
    }

    /**
      * The copy constructor behind `copy()`: an independent store with the
      * same cells, independent copies of the label and index arrays (null
      * stays null), and the same flags and cached bounds.
      */
    constructor Copy(mat: ColtMatrix)
      requires mat.Valid()
      ensures Valid() && fresh(data) && SameContents(mat)
      ensures rowLabels != null ==> fresh(rowLabels)
      ensures columnLabels != null ==> fresh(columnLabels)
      ensures rowLabels != null && columnLabels != null ==> rowLabels != columnLabels
      ensures index != null ==> fresh(index)
    {
      var grid := CopyGrid(mat.data);
      var rl: array?<Label> := null;
      var cl: array?<Label> := null;
      var idx: array?<int> := null;
      if mat.rowLabels != null {
        rl := JavaArrays.CopyOf(mat.rowLabels, mat.rowLabels.Length);
      }
      if mat.columnLabels != null {
        cl := JavaArrays.CopyOf(mat.columnLabels, mat.columnLabels.Length);
      }
      if mat.index != null {
        idx := JavaArrays.CopyOfInts(mat.index);
      }
      data := grid;
      nRows, nColumns := mat.nRows, mat.nColumns;
      transposed, symmetric := mat.transposed, mat.symmetric;
      minValue, maxValue := mat.minValue, mat.maxValue;
      rowLabels, columnLabels, index := rl, cl, idx;
    }

    /**
      * This matrix holds the same cells, flags, cached bounds, labels and
      * index as `mat` (null exactly where `mat` has null).
      */
    ghost predicate SameContents(mat: ColtMatrix)
      reads this, mat, data, mat.data, rowLabels, mat.rowLabels, columnLabels, mat.columnLabels, index, mat.index
    {
      && nRows == mat.nRows && nColumns == mat.nColumns
      && Snapshot(data) == Snapshot(mat.data)
      && transposed == mat.transposed && symmetric == mat.symmetric
      && minValue == mat.minValue && maxValue == mat.maxValue
      && (rowLabels == null) == (mat.rowLabels == null)
      && (rowLabels != null ==> rowLabels[..] == mat.rowLabels[..])
      && (columnLabels == null) == (mat.columnLabels == null)
      && (columnLabels != null ==> columnLabels[..] == mat.columnLabels[..])
      && (index == null) == (mat.index == null)
      && (index != null ==> index[..] == mat.index[..])
    }

    /** `nRows()`: the index length once an index is present. */
    function NRows(): (n: int)
      reads this
      ensures index != null ==> n == index.Length
      ensures index == null ==> n == nRows
    {
      if index != null then index.Length else nRows
    }

    /** The physical coordinate behind a logical one. */
    function Physical(i: int): int
      reads this, index
      requires index != null ==> 0 <= i < index.Length
    {
      if index == null then i else index[i]
    }

    /**
      * (row, column) is a logical coordinate whose translation lands in the
      * store (Colt's unchecked `getQuick`/`setQuick` demand this of callers).
      */
    ghost predicate InRange(row: int, column: int)
      reads this, index
    {
      if index == null then 0 <= row < nRows && 0 <= column < nColumns
      else
        && 0 <= row < index.Length && 0 <= column < index.Length
        && 0 <= index[row] < nRows && 0 <= index[column] < nColumns
    }

    /** `doubleValue`/`getValue`: the cell behind a logical coordinate; `None` is NaN (null). */
    function DoubleValue(row: int, column: int): (v: Option<real>)
      reads this, data, index
      requires Valid() && InRange(row, column)
      ensures index == null ==> v == data[row, column]
      ensures index != null ==> v == data[index[row], index[column]]
    {
      data[Physical(row), Physical(column)]
    }

    /** `hasValue`: false exactly for a missing (NaN) cell. */
    function HasValue(row: int, column: int): (b: bool)
      reads this, data, index
      requires Valid() && InRange(row, column)
      ensures !b <==> DoubleValue(row, column) == None
    {
      DoubleValue(row, column).Some?
    }

    /**
      * `setValue`, both overloads (a NaN double and a null Double both store
      * the missing marker): writes the translated cell and widens the cached
      * bounds by a finite value.
      */
    method SetValue(row: int, column: int, value: Option<real>)
      requires Valid() && InRange(row, column)
      modifies this`minValue, this`maxValue, data
      ensures Valid()
      ensures DoubleValue(row, column) == value
      ensures HasValue(row, column) <==> value.Some?
      ensures forall i, j :: 0 <= i < nRows && 0 <= j < nColumns && (i != Physical(row) || j != Physical(column)) ==>
        data[i, j] == old(data[i, j])
      ensures minValue <= old(minValue) && old(maxValue) <= maxValue
      ensures value.Some? ==> minValue == Min(old(minValue), value.value) && maxValue == Max(old(maxValue), value.value)
      ensures value.Some? ==> minValue <= value.value <= maxValue
      ensures value.None? ==> minValue == old(minValue) && maxValue == old(maxValue)
    {
      if value.Some? {
        if value.value < minValue { minValue := value.value; }
        if value.value > maxValue { maxValue := value.value; }
      }
      var r, c := row, column;
      if index != null {
        r := index[row];
        c := index[column];
      }
      data[r, c] := value;
    }

    /** `getRowLabel`: the label of the translated row. */
    function GetRowLabel(row: int): (l: Label)
      reads this, index, rowLabels
      requires rowLabels != null
      requires index != null ==> 0 <= row < index.Length
      requires 0 <= Physical(row) < rowLabels.Length
      ensures index == null ==> l == rowLabels[row]
      ensures index != null ==> l == rowLabels[index[row]]
    {
      rowLabels[Physical(row)]
    }

    /** `setRowLabel`: writes the label of the translated row, and only that one. */
    method SetRowLabel(row: int, newLabel: Label)
      requires rowLabels != null
      requires index != null ==> 0 <= row < index.Length
      requires 0 <= Physical(row) < rowLabels.Length
      modifies rowLabels
      ensures GetRowLabel(row) == newLabel
      ensures rowLabels[..] == old(rowLabels[..])[Physical(row) := newLabel]
    {
      var r := row;
      if index != null {
        r := index[row];
      }
      rowLabels[r] := newLabel;
    }

    /** `setRowLabels`: a fresh label array holding the list. */
    method SetRowLabels(labels: seq<Label>)
      modifies this`rowLabels
      ensures rowLabels != null && fresh(rowLabels) && rowLabels[..] == labels
    {
      rowLabels := new Label[|labels|](i requires 0 <= i < |labels| => labels[i]);
    }

    /** `getColumnLabel`: the label of the translated column. */
    function GetColumnLabel(column: int): (l: Label)
      reads this, index, columnLabels
      requires columnLabels != null
      requires index != null ==> 0 <= column < index.Length
      requires 0 <= Physical(column) < columnLabels.Length
      ensures index == null ==> l == columnLabels[column]
      ensures index != null ==> l == columnLabels[index[column]]
    {
      columnLabels[Physical(column)]
    }

    /** `setColumnLabel`: writes the label of the translated column, and only that one. */
    method SetColumnLabel(column: int, newLabel: Label)
      requires columnLabels != null
      requires index != null ==> 0 <= column < index.Length
      requires 0 <= Physical(column) < columnLabels.Length
      modifies columnLabels
      ensures GetColumnLabel(column) == newLabel
      ensures columnLabels[..] == old(columnLabels[..])[Physical(column) := newLabel]
    {
      var c := column;
      if index != null {
        c := index[column];
      }
      columnLabels[c] := newLabel;
    }

    /** `setColumnLabels`: a fresh label array holding the list. */
    method SetColumnLabels(labels: seq<Label>)
      modifies this`columnLabels
      ensures columnLabels != null && fresh(columnLabels) && columnLabels[..] == labels
    {
      columnLabels := new Label[|labels|](i requires 0 <= i < |labels| => labels[i]);
    }

    /** `colStart`: the first column a triangle-aware loop visits in `row`. */
    function ColStart(row: int): (c: int)
      reads this
      ensures symmetric ==> c == row
      ensures !symmetric ==> c == 0
    {
      if !symmetric then 0 else row
    }

    /**
      * `index()`: on a symmetric matrix, installs the identity index of
      * length nRows, after which each logical coordinate reads the physical
      * cell with the same coordinates; on any other matrix it changes
      * nothing.
      */
    method Index()
      requires Valid()
      modifies this`index
      ensures Valid()
      ensures !symmetric ==> index == old(index)
      ensures symmetric ==> index != null && fresh(index) && index.Length == nRows
      ensures symmetric ==> forall i :: 0 <= i < nRows ==> index[i] == i
      ensures symmetric ==> NRows() == nRows
      ensures symmetric ==> forall r, c :: 0 <= r < nRows && 0 <= c < nRows && c < nColumns ==>
        InRange(r, c) && DoubleValue(r, c) == data[r, c]
    {
      if !symmetric {
        return;
      }
      var idx := new int[nRows];
      var i := 0;
      while i < idx.Length
        invariant 0 <= i <= idx.Length
        invariant forall k :: 0 <= k < i ==> idx[k] == k
      {
        idx[i] := i;
        i := i + 1;
      }
      index := idx;
    }

    /**
      * `submatrix(int[])`: a zero-copy view. It shares this matrix's store
      * and label arrays, carries `idx` as its index, and so reads and
      * writes the physical cell (idx[r], idx[c]) for its logical (r, c).
      */
    method Submatrix(idx: array<int>) returns (mat: ColtMatrix)
      requires Valid()
      ensures fresh(mat) && mat.Valid()
      ensures mat.data == data && mat.index == idx
      ensures mat.rowLabels == rowLabels && mat.columnLabels == columnLabels
      ensures mat.nRows == nRows && mat.nColumns == nColumns && mat.NRows() == idx.Length
      ensures mat.symmetric == symmetric && mat.transposed == transposed
      ensures mat.minValue == minValue && mat.maxValue == maxValue
      ensures forall r, c :: mat.InRange(r, c) ==> mat.DoubleValue(r, c) == data[idx[r], idx[c]]
    {
      mat := new ColtMatrix.Empty();
      mat.data := data;
      mat.index := idx;
      mat.nRows := nRows;
      mat.nColumns := nColumns;
      mat.symmetric := symmetric;
      mat.transposed := transposed;
      mat.rowLabels := rowLabels;
      mat.columnLabels := columnLabels;
      mat.maxValue := maxValue;
      mat.minValue := minValue;
    }

    /**
      * The cells a triangle-aware loop visits before reaching (row, col):
      * rows in order, each from `ColStart` to the last column.
      */
    ghost predicate Visited(row: int, col: int, i: int, j: int)
      reads this
    {
      TriangleVisited(nRows, nColumns, symmetric, row, col, i, j)
    }

    /** Every cell such a loop visits can be read through the index. */
    ghost predicate TriangleReadable()
      reads this, index
    {
      forall i, j :: 0 <= i < nRows && ColStart(i) <= j < nColumns ==> InRange(i, j)
    }

    /** The dense array after the `toArray` loop has visited the cells before (row, col). */
    ghost function Dense(row: int, col: int, i: int, j: int): Option<real>
      reads this, data, index
      requires Valid() && TriangleReadable()
    {
      if Visited(row, col, i, j) then DoubleValue(i, j)
      else if symmetric && Visited(row, col, j, i) then DoubleValue(j, i)
      else Some(0.0)
    }

    /** Visiting (row, col) changes the dense array at that cell and, on a symmetric matrix, its mirror. */
    lemma DenseStep(row: int, col: int, i: int, j: int)
      requires Valid() && TriangleReadable()
      requires 0 <= row < nRows && ColStart(row) <= col < nColumns
      ensures Dense(row, col + 1, i, j) ==
        if (i == row && j == col) || (symmetric && i == col && j == row) then DoubleValue(row, col)
        else Dense(row, col, i, j)
    {
    }

    /** Finishing a row is the same as starting the next one. */
    lemma DenseRowDone(row: int, col: int, i: int, j: int)
      requires Valid() && TriangleReadable()
      requires 0 <= row < nRows && ColStart(row) <= col && nColumns <= col
      ensures Dense(row, col, i, j) == Dense(row + 1, 0, i, j)
    {
    }

    /** Once every row is visited, each visited cell holds its value and a symmetric matrix is mirrored. */
    lemma DenseFinal(i: int, j: int)
      requires Valid() && TriangleReadable()
      requires symmetric ==> nColumns <= nRows
      requires 0 <= i < nRows && 0 <= j < nColumns
      ensures !symmetric ==> Dense(nRows, 0, i, j) == DoubleValue(i, j)
      ensures symmetric && i <= j ==> Dense(nRows, 0, i, j) == DoubleValue(i, j) && Dense(nRows, 0, j, i) == DoubleValue(i, j)
      ensures symmetric && nColumns <= i ==> Dense(nRows, 0, i, j) == Some(0.0)
    {
    }

    /** One visit of the `toArray` loop: cell (row, col) and, on a symmetric matrix, its mirror. */
    method ToArrayCell(a: array2<Option<real>>, row: int, col: int)
      requires Valid() && TriangleReadable()
      requires symmetric ==> nColumns <= nRows
      requires a.Length0 == nRows && a.Length1 == nColumns && a != data
      requires 0 <= row < nRows && ColStart(row) <= col < nColumns
      requires forall i, j :: 0 <= i < nRows && 0 <= j < nColumns ==> a[i, j] == Dense(row, col, i, j)
      modifies a
      ensures forall i, j :: 0 <= i < nRows && 0 <= j < nColumns ==> a[i, j] == Dense(row, col + 1, i, j)
    {
      var v := DoubleValue(row, col);
      a[row, col] := v;
      if symmetric && row != col {
        a[col, row] := v;
      }
      forall i, j | 0 <= i < nRows && 0 <= j < nColumns
        ensures a[i, j] == Dense(row, col + 1, i, j)
      {
        DenseStep(row, col, i, j);
      }
    }

    /** One pass of the `toArray` row loop: visits `row` from `ColStart(row)`. */
    method ToArrayRow(a: array2<Option<real>>, row: int)
      requires Valid() && TriangleReadable()
      requires symmetric ==> nColumns <= nRows
      requires a.Length0 == nRows && a.Length1 == nColumns && a != data
      requires 0 <= row < nRows
      requires forall i, j :: 0 <= i < nRows && 0 <= j < nColumns ==> a[i, j] == Dense(row, 0, i, j)
      modifies a
      ensures forall i, j :: 0 <= i < nRows && 0 <= j < nColumns ==> a[i, j] == Dense(row + 1, 0, i, j)
    {
      var col := ColStart(row);
      while col < nColumns
        invariant ColStart(row) <= col
        invariant forall i, j :: 0 <= i < nRows && 0 <= j < nColumns ==> a[i, j] == Dense(row, col, i, j)
      {
        ToArrayCell(a, row, col);
        col := col + 1;
      }
      forall i, j | 0 <= i < nRows && 0 <= j < nColumns
        ensures a[i, j] == Dense(row + 1, 0, i, j)
      {
        DenseRowDone(row, col, i, j);
      }
    }

    /**
      * `toArray`: a fresh nRows x nColumns array (0.0 where nothing was
      * written) holding each visited cell's value read through the index;
      * a symmetric matrix fills only its upper triangle and mirrors it.
      */
    method ToArray() returns (a: array2<Option<real>>)
      requires Valid() && TriangleReadable()
      requires symmetric ==> nColumns <= nRows
      ensures fresh(a) && a.Length0 == nRows && a.Length1 == nColumns
      ensures forall i, j :: 0 <= i < nRows && 0 <= j < nColumns ==> a[i, j] == Dense(nRows, 0, i, j)
      ensures !symmetric ==> forall i, j :: 0 <= i < nRows && 0 <= j < nColumns ==> a[i, j] == DoubleValue(i, j)
      ensures symmetric ==> forall i, j :: 0 <= i <= j < nColumns ==> a[i, j] == DoubleValue(i, j) && a[j, i] == DoubleValue(i, j)
      ensures symmetric ==> forall i, j :: nColumns <= i < nRows && 0 <= j < nColumns ==> a[i, j] == Some(0.0)
    {
      a := new Option<real>[nRows, nColumns]((_, _) => Some(0.0));
      var row := 0;
      while row < nRows
        invariant 0 <= row <= nRows
        invariant forall i, j :: 0 <= i < nRows && 0 <= j < nColumns ==> a[i, j] == Dense(row, 0, i, j)
      {
        ToArrayRow(a, row);
        row := row + 1;
      }
      forall i, j | 0 <= i < nRows && 0 <= j < nColumns
        ensures !symmetric ==> a[i, j] == DoubleValue(i, j)
        ensures symmetric && i <= j ==> a[i, j] == DoubleValue(i, j) && a[j, i] == DoubleValue(i, j)
        ensures symmetric && nColumns <= i ==> a[i, j] == Some(0.0)
      {
        DenseFinal(i, j);
      }
    }

    /**
      * A cell after the `setMissingToZero` loop has visited the cells before
      * (row, col), given the store `g` it started from: a visited missing
      * cell is zeroed and, on a symmetric matrix, so is its mirror.
      */
    ghost function Zeroed(g: seq<seq<Option<real>>>, row: int, col: int, i: int, j: int): Option<real>
      reads this
      requires |g| == nRows && (forall k :: 0 <= k < nRows ==> |g[k]| == nColumns)
      requires 0 <= i < nRows && 0 <= j < nColumns
    {
      ZeroedCell(g, nRows, nColumns, symmetric, row, col, i, j)
    }

    /** Visiting (row, col) zeroes that cell, and on a symmetric matrix its mirror, when the cell was missing. */
    lemma ZeroedStep(g: seq<seq<Option<real>>>, row: int, col: int, i: int, j: int)
      requires |g| == nRows && (forall k :: 0 <= k < nRows ==> |g[k]| == nColumns)
      requires symmetric ==> nColumns <= nRows
      requires 0 <= row < nRows && ColStart(row) <= col < nColumns
      requires 0 <= i < nRows && 0 <= j < nColumns
      ensures Zeroed(g, row, col, row, col) == g[row][col]
      ensures Zeroed(g, row, col + 1, i, j) ==
        if ((i == row && j == col) || (symmetric && i == col && j == row)) && g[row][col].None? then Some(0.0)
        else Zeroed(g, row, col, i, j)
    {
    }

    /** Finishing a row is the same as starting the next one. */
    lemma ZeroedRowDone(g: seq<seq<Option<real>>>, row: int, col: int, i: int, j: int)
      requires |g| == nRows && (forall k :: 0 <= k < nRows ==> |g[k]| == nColumns)
      requires 0 <= row < nRows && nColumns <= col
      requires 0 <= i < nRows && 0 <= j < nColumns
      ensures Zeroed(g, row, col, i, j) == Zeroed(g, row + 1, 0, i, j)
    {
    }

    /** One visit of the `setMissingToZero` loop, testing the physical cell it writes. */
    method SetMissingToZeroCell(row: int, col: int, ghost g: seq<seq<Option<real>>>)
      requires Valid() && 0 <= row < nRows && ColStart(row) <= col < nColumns
      requires symmetric ==> nColumns <= nRows
      requires |g| == nRows && (forall k :: 0 <= k < nRows ==> |g[k]| == nColumns)
      requires forall i, j :: 0 <= i < nRows && 0 <= j < nColumns ==> data[i, j] == Zeroed(g, row, col, i, j)
      modifies data
      ensures forall i, j :: 0 <= i < nRows && 0 <= j < nColumns ==> data[i, j] == Zeroed(g, row, col + 1, i, j)
    {
      ZeroedStep(g, row, col, row, col);
      if data[row, col].None? {
        data[row, col] := Some(0.0);
        if symmetric && row != col {
          data[col, row] := Some(0.0);
        }
      }
      forall i, j | 0 <= i < nRows && 0 <= j < nColumns
        ensures data[i, j] == Zeroed(g, row, col + 1, i, j)
      {
        ZeroedStep(g, row, col, i, j);
      }
    }

    /** One pass of the `setMissingToZero` row loop. */
    method SetMissingToZeroRow(row: int, ghost g: seq<seq<Option<real>>>)
      requires Valid() && 0 <= row < nRows
      requires symmetric ==> nColumns <= nRows
      requires |g| == nRows && (forall k :: 0 <= k < nRows ==> |g[k]| == nColumns)
      requires forall i, j :: 0 <= i < nRows && 0 <= j < nColumns ==> data[i, j] == Zeroed(g, row, 0, i, j)
      modifies data
      ensures forall i, j :: 0 <= i < nRows && 0 <= j < nColumns ==> data[i, j] == Zeroed(g, row + 1, 0, i, j)
    {
      var col := ColStart(row);
      while col < nColumns
        invariant ColStart(row) <= col
        invariant forall i, j :: 0 <= i < nRows && 0 <= j < nColumns ==> data[i, j] == Zeroed(g, row, col, i, j)
      {
        SetMissingToZeroCell(row, col, g);
        col := col + 1;
      }
      forall i, j | 0 <= i < nRows && 0 <= j < nColumns
        ensures data[i, j] == Zeroed(g, row + 1, 0, i, j)
      {
        ZeroedRowDone(g, row, col, i, j);
      }
    }

    /**
      * `setMissingToZero`: every missing cell the triangle-aware loop
      * visits becomes 0.0 and every present one keeps its value; on a
      * symmetric matrix the mirror of a zeroed cell is zeroed too. The
      * loop tests the same physical cell it writes (see the findings for
      * the index-translated test of the original).
      */
    method SetMissingToZero()
      requires Valid()
      requires symmetric ==> nColumns <= nRows
      modifies data
      ensures forall i, j :: 0 <= i < nRows && ColStart(i) <= j < nColumns ==> data[i, j].Some?
      ensures forall i, j :: 0 <= i < nRows && ColStart(i) <= j < nColumns ==>
        data[i, j] == if old(data[i, j]).None? then Some(0.0) else old(data[i, j])
      ensures forall i, j :: 0 <= j < i < nRows && j < nColumns && symmetric ==>
        data[i, j] == if i < nColumns && old(data[j, i]).None? then Some(0.0) else old(data[i, j])
    {
      ghost var g := Snapshot(data);
      var row := 0;
      while row < nRows
        invariant 0 <= row <= nRows
        invariant forall i, j :: 0 <= i < nRows && 0 <= j < nColumns ==> data[i, j] == Zeroed(g, row, 0, i, j)
      {
        SetMissingToZeroRow(row, g);
        row := row + 1;
      }
    }

    /** `adjustDiagonals`' inner loop: the largest of 0.0 and the row's finite values. */
    method PhysicalRowMax(row: int) returns (max: real)
      requires Valid() && 0 <= row < nRows
      ensures max == RowMax(Snapshot(data)[row])
    {
      ghost var s := Snapshot(data)[row];
      max := 0.0;
      var col := 0;
      while col < nColumns
        invariant 0 <= col <= nColumns
        invariant max == RowMax(s[..col])
      {
        assert s[..col + 1][..col] == s[..col];
        if data[row, col].Some? && data[row, col].value > max {
          max := data[row, col].value;
        }
        col := col + 1;
      }
      assert s[..col] == s;
    }

    /**
      * `adjustDiagonals`: each diagonal cell becomes the largest of 0.0 and
      * the finite values of its row as it was (old diagonal included);
      * every other cell keeps its value.
      */
    method AdjustDiagonals()
      requires Valid() && nRows <= nColumns
      modifies data
      ensures forall i, j :: 0 <= i < nRows && 0 <= j < nColumns && i != j ==> data[i, j] == old(data[i, j])
      ensures forall i :: 0 <= i < nRows ==> data[i, i] == Some(RowMax(old(Snapshot(data))[i]))
    {
      ghost var g := Snapshot(data);
      var row := 0;
      while row < nRows
        invariant 0 <= row <= nRows
        invariant forall i, j :: 0 <= i < nRows && 0 <= j < nColumns && (i != j || row <= i) ==> data[i, j] == g[i][j]
        invariant forall i :: 0 <= i < row ==> data[i, i] == Some(RowMax(g[i]))
      {
        AdjustDiagonalRow(row, g);
        row := row + 1;
      }
    }

    /** One pass of `adjustDiagonals`' outer loop: diagonal cell `row` takes its row maximum. */
    method AdjustDiagonalRow(row: int, ghost g: seq<seq<Option<real>>>)
      requires Valid() && 0 <= row < nRows <= nColumns
      requires |g| == nRows && forall i :: 0 <= i < nRows ==> |g[i]| == nColumns
      requires forall i, j :: 0 <= i < nRows && 0 <= j < nColumns && (i != j || row <= i) ==> data[i, j] == g[i][j]
      requires forall i :: 0 <= i < row ==> data[i, i] == Some(RowMax(g[i]))
      modifies data
      ensures forall i, j :: 0 <= i < nRows && 0 <= j < nColumns && (i != j || row + 1 <= i) ==> data[i, j] == g[i][j]
      ensures forall i :: 0 <= i < row + 1 ==> data[i, i] == Some(RowMax(g[i]))
    {
      assert Snapshot(data)[row] == g[row];
      var max := PhysicalRowMax(row);
      data[row, row] := Some(max);
    }

    /** Every column of logical row `row` can be read through the index. */
    ghost predicate RowReadable(row: int)
      reads this, index
    {
      forall column :: 0 <= column < nColumns ==> InRange(row, column)
    }

    /** Logical row `row`, read through the index. */
    ghost function LogicalRow(row: int): (s: seq<Option<real>>)
      reads this, data, index
      requires Valid() && RowReadable(row)
      ensures |s| == nColumns
      ensures forall column :: 0 <= column < nColumns ==> s[column] == DoubleValue(row, column)
    {
      seq(nColumns, column reads this, data, index requires Valid() && RowReadable(row) && 0 <= column < nColumns =>
        DoubleValue(row, column))
    }

    /** `getRank`'s first loop: the row's finite values, packed to the front of a fresh array. */
    method MaskedRow(row: int) returns (tData: array<real>, nVals: int)
      requires Valid() && RowReadable(row)
      ensures fresh(tData) && 0 <= nVals <= tData.Length
      ensures tData[..nVals] == Present(LogicalRow(row))
    {
      ghost var s := LogicalRow(row);
      tData := new real[nColumns];
      nVals := 0;
      var column := 0;
      while column < nColumns
        invariant 0 <= column <= nColumns
        invariant 0 <= nVals <= column
        invariant tData[..nVals] == Present(s[..column])
      {
        var cell := DoubleValue(row, column);
        nVals := PackCell(tData, nVals, cell, s, column);
        column := column + 1;
      }
      assert s[..column] == s;
    }

    /** Every logical row below nRows can be read through the index. */
    ghost predicate Readable()
      reads this, index
    {
      forall row :: 0 <= row < nRows ==> RowReadable(row)
    }

    /** The first nRows logical rows, read through the index. */
    ghost function LogicalRows(): (g: seq<seq<Option<real>>>)
      reads this, data, index
      requires Valid() && Readable()
      ensures |g| == nRows
      ensures forall row :: 0 <= row < nRows ==> g[row] == LogicalRow(row)
    {
      seq(nRows, row reads this, data, index requires Valid() && Readable() && 0 <= row < nRows => LogicalRow(row))
    }

    /**
      * `getRank`: null (`None`) when the row has no finite value; otherwise
      * one mid-rank per finite value, in column order. `order` is the
      * ascending sort of those values (`MatrixUtils.indexSort`).
      */
    method GetRank(row: int, order: seq<int>) returns (ranks: Option<seq<real>>)
      requires Valid() && RowReadable(row)
      requires SortsValues(order, Present(LogicalRow(row)))
      ensures ranks.None? <==> Present(LogicalRow(row)) == []
      ensures ranks.Some? ==> ranks.value == MidRanks(Present(LogicalRow(row)))
    {
      ghost var vals := Present(LogicalRow(row));
      var tData, nVals := MaskedRow(row);
      if nVals == 0 {
        return None;
      }
      // positional ranks
      var rank := new real[nVals];
      var i := 0;
      while i < nVals
        invariant 0 <= i <= nVals
        invariant tData[..nVals] == vals
        invariant forall k :: 0 <= k < i ==> rank[order[k]] == k as real
      {
        rank[order[i]] := i as real;
        i := i + 1;
      }
      AverageTies(tData, nVals, order, rank);
      ranks := Some(rank[..]);
    }

    /**
      * `getDistanceMatrix`: a fresh symmetric, untransposed n x n matrix
      * (n = nRows) whose cells (i, j) and (j, i), i <= j, both hold
      * metric(i, j), whose row and column labels are both copies of this
      * matrix's row labels, and whose cached bounds cover every finite
      * distance. The parallel stream of the original is run in sequence.
      */
    method GetDistanceMatrix(metric: (int, int) -> Option<real>) returns (mat: ColtMatrix)
      requires rowLabels != null && nRows >= 0
      ensures fresh(mat) && fresh(mat.data) && mat.Valid()
      ensures mat.nRows == nRows && mat.nColumns == nRows && mat.index == null
      ensures mat.symmetric && !mat.transposed
      ensures forall i, j :: 0 <= i <= j < nRows ==> mat.data[i, j] == metric(i, j) && mat.data[j, i] == metric(i, j)
      ensures mat.rowLabels != null && fresh(mat.rowLabels) && mat.rowLabels[..] == rowLabels[..]
      ensures mat.columnLabels != null && fresh(mat.columnLabels) && mat.columnLabels[..] == rowLabels[..]
      ensures mat.rowLabels != mat.columnLabels
      ensures forall i, j :: 0 <= i <= j < nRows && metric(i, j).Some? ==> mat.minValue <= metric(i, j).value <= mat.maxValue
    {
      var n := nRows;
      mat := new ColtMatrix(n, n);
      mat.transposed := false;
      mat.symmetric := true;
      var rl := JavaArrays.CopyOf(rowLabels, rowLabels.Length);
      var cl := JavaArrays.CopyOf(rowLabels, rowLabels.Length);
      mat.rowLabels, mat.columnLabels := rl, cl;
      FillDistance(mat, metric, n);
    }

    /**
      * `submatrix(row, col, rows, cols)`: a rows x cols matrix over the block
      * starting at (row, col). Row labels are the block's slice of the label
      * array (not index-translated); column labels are copied only by the
      * first pass of the row loop, so they stay null when rows == 0. The
      * cached bounds are reset to their sentinels without a scan, the
      * transposed flag is kept, and the result is symmetric only when this
      * matrix is and the block is square on the diagonal.
      */
    method SubmatrixRange(row: int, col: int, rows: int, cols: int) returns (mat: ColtMatrix)
      requires Valid()
      requires 0 <= row && 0 <= col && 0 <= rows && 0 <= cols
      requires row + rows <= nRows && col + cols <= nColumns
      requires rows > 0 ==> rowLabels != null && row + rows <= rowLabels.Length
      requires rows > 0 && cols > 0 ==> columnLabels != null && col + cols <= columnLabels.Length
      ensures fresh(mat) && fresh(mat.data) && mat.Valid()
      ensures mat.nRows == rows && mat.nColumns == cols && mat.index == null
      ensures forall i, j :: 0 <= i < rows && 0 <= j < cols ==> mat.data[i, j] == data[row + i, col + j]
      ensures mat.rowLabels != null && fresh(mat.rowLabels)
      ensures mat.rowLabels[..] == if rows == 0 then [] else rowLabels[row..row + rows]
      ensures mat.columnLabels != null && fresh(mat.columnLabels) && mat.rowLabels != mat.columnLabels
      ensures mat.columnLabels[..] == if rows == 0 || cols == 0 then seq(cols, _ => None) else columnLabels[col..col + cols]
      ensures mat.minValue == DoubleMaxValue && mat.maxValue == DoubleMinValue
      ensures mat.transposed == transposed
      ensures mat.symmetric == (symmetric && rows == cols && row == col)
    {
      mat := new ColtMatrix(rows, cols);
      var block := Block(data, row, col, rows, cols);
      mat.data := block;
      var newMin, newMax := DoubleMaxValue, DoubleMinValue;
      CopyBlockLabels(mat, this, row, col, rows, cols);
      mat.minValue := newMin;
      mat.maxValue := newMax;
      if transposed {
        mat.transposed := transposed;
      }
      if symmetric && rows == cols && row == col {
        mat.symmetric := symmetric;
      }
    }
  }

  /**
    * A write through a `Submatrix` view lands in the original's store at
    * the translated cell, the view reads it back at the logical one, and
    * the original (indexed or not) reads it at every logical coordinate
    * that translates to that cell.
    */
  method ViewWriteIsShared(m: ColtMatrix, idx: array<int>, r: int, c: int, v: Option<real>) returns (view: ColtMatrix)
    requires m.Valid()
    requires 0 <= r < idx.Length && 0 <= c < idx.Length
    requires 0 <= idx[r] < m.nRows && 0 <= idx[c] < m.nColumns
    modifies m.data
    ensures view.data == m.data && view.index == idx && view.Valid() && view.InRange(r, c)
    ensures m.data[idx[r], idx[c]] == v
    ensures view.DoubleValue(r, c) == v
    ensures forall a, b :: m.InRange(a, b) && m.Physical(a) == idx[r] && m.Physical(b) == idx[c] ==> m.DoubleValue(a, b) == v
  {
    view := m.Submatrix(idx);
    view.SetValue(r, c, v);
  }

  /**
    * A write to a `Copy` (indexed or not) reads back on the copy and leaves
    * every cell, label and index entry of the original as it was.
    */
  method CopyIsIndependent(m: ColtMatrix, r: int, c: int, v: Option<real>) returns (cp: ColtMatrix)
    requires m.Valid() && m.InRange(r, c)
    ensures fresh(cp) && cp.Valid() && cp.nRows == m.nRows && cp.nColumns == m.nColumns
    ensures (cp.index == null) == (m.index == null)
    ensures cp.InRange(r, c) && cp.DoubleValue(r, c) == v
    ensures Snapshot(m.data) == old(Snapshot(m.data))
    ensures m.rowLabels != null ==> m.rowLabels[..] == old(m.rowLabels[..])
    ensures m.columnLabels != null ==> m.columnLabels[..] == old(m.columnLabels[..])
    ensures m.index != null ==> m.index[..] == old(m.index[..])
  {
    cp := new ColtMatrix.Copy(m);
    assert cp.index != null ==> cp.index[..] == m.index[..];
    cp.SetValue(r, c, v);
  }

  /**
    * The cells of a rows x cols store that a triangle-aware loop visits
    * before reaching (row, col): rows in order, each from `colStart` (the
    * diagonal when symmetric, else column 0) to the last column.
    */
  ghost predicate TriangleVisited(rows: int, cols: int, symmetric: bool, row: int, col: int, i: int, j: int) {
    0 <= i < rows && (if symmetric then i else 0) <= j < cols && (i < row || (i == row && j < col))
  }

  /**
    * Cell (i, j) after a `setMissingToZero` loop that tests the cell it
    * writes has visited the cells before (row, col) of the store `g`: a
    * visited missing cell is zeroed and, on a symmetric matrix, so is its
    * mirror.
    */
  ghost function ZeroedCell(g: seq<seq<Option<real>>>, rows: int, cols: int, symmetric: bool, row: int, col: int, i: int, j: int): Option<real>
    requires |g| == rows && (forall k :: 0 <= k < rows ==> |g[k]| == cols)
    requires 0 <= i < rows && 0 <= j < cols
  {
    if TriangleVisited(rows, cols, symmetric, row, col, i, j) && g[i][j].None? then Some(0.0)
    else if symmetric && TriangleVisited(rows, cols, symmetric, row, col, j, i) && g[j][i].None? then Some(0.0)
    else g[i][j]
  }

  /**
    * One pass of `getRank`'s first loop: a present cell is appended to the
    * packed values, a missing one is skipped.
    */
  method PackCell(tData: array<real>, nVals: int, cell: Option<real>, ghost s: seq<Option<real>>, column: int) returns (count: int)
    requires 0 <= nVals <= column < |s| <= tData.Length && cell == s[column]
    requires tData[..nVals] == Present(s[..column])
    modifies tData
    ensures nVals <= count <= column + 1
    ensures tData[..count] == Present(s[..column + 1])
  {
    PresentPrefix(s, column);
    count := nVals;
    if cell.Some? {
      ghost var packed := tData[..nVals];
      tData[nVals] := cell.value;
      assert tData[..nVals + 1] == packed + [cell.value];
      count := nVals + 1;
    }
  }

  /** `g` is an n x n store. */
  ghost predicate IsSquare(g: seq<seq<Option<real>>>, n: int) {
    |g| == n && forall i :: 0 <= i < n ==> |g[i]| == n
  }

  /**
    * `setMissingToZero` as the original writes it, over an n x n store `g`
    * with index `idx` (n = |idx|), from cursor (row, col) onward: the test
    * reads the index-translated cell (idx[row], idx[col]) while the writes
    * go to the physical cell (row, col) and its mirror.
    */
  function SetMissingToZeroAsWritten(g: seq<seq<Option<real>>>, idx: seq<int>, symmetric: bool, row: nat, col: nat): (h: seq<seq<Option<real>>>)
    requires IsSquare(g, |idx|) && forall k :: 0 <= k < |idx| ==> 0 <= idx[k] < |idx|
    ensures IsSquare(h, |idx|)
    decreases |idx| - row, |idx| - col
  {
    var n := |idx|;
    if row >= n then g
    else if col >= n then SetMissingToZeroAsWritten(g, idx, symmetric, row + 1, if symmetric then row + 1 else 0)
    else if g[idx[row]][idx[col]].None? then
      var once := g[row := g[row][col := Some(0.0)]];
      var both := if symmetric && row != col then once[col := once[col][row := Some(0.0)]] else once;
      SetMissingToZeroAsWritten(both, idx, symmetric, row, col + 1)
    else SetMissingToZeroAsWritten(g, idx, symmetric, row, col + 1)
  }

  /**
    * On the symmetric 2 x 2 store [[5, 1], [1, NaN]] viewed through the
    * index [1, 0], the original loop overwrites the finite 5 with 0.0 and
    * leaves the NaN in place.
    */
  lemma SetMissingToZeroAsWrittenCounterexample()
    ensures var h := SetMissingToZeroAsWritten([[Some(5.0), Some(1.0)], [Some(1.0), None]], [1, 0], true, 0, 0);
      h[0][0] == Some(0.0) && h[1][1] == None
  {
    var idx := [1, 0];
    var g0 := [[Some(5.0), Some(1.0)], [Some(1.0), None]];
    var g1 := [[Some(0.0), Some(1.0)], [Some(1.0), None]];
    assert g0[idx[0]][idx[0]] == None;
    assert g0[0][0 := Some(0.0)] == g1[0];
    assert g0[0 := g0[0][0 := Some(0.0)]] == g1;
    assert SetMissingToZeroAsWritten(g0, idx, true, 0, 0) == SetMissingToZeroAsWritten(g1, idx, true, 0, 1);
    assert g1[idx[0]][idx[1]] == Some(1.0);
    assert SetMissingToZeroAsWritten(g1, idx, true, 0, 1) == SetMissingToZeroAsWritten(g1, idx, true, 0, 2);
    assert SetMissingToZeroAsWritten(g1, idx, true, 0, 2) == SetMissingToZeroAsWritten(g1, idx, true, 1, 1);
    assert g1[idx[1]][idx[1]] == Some(0.0);
    assert SetMissingToZeroAsWritten(g1, idx, true, 1, 1) == SetMissingToZeroAsWritten(g1, idx, true, 1, 2);
    assert SetMissingToZeroAsWritten(g1, idx, true, 1, 2) == SetMissingToZeroAsWritten(g1, idx, true, 2, 2);
  }

  /**
    * With the identity index, the original loop from cursor (row, col)
    * onward behaves as the corrected one: a store holding the cells after
    * the visits before (row, col) ends holding the cells after every visit.
    */
  lemma {:induction false} AsWrittenIdentityFrom(g0: seq<seq<Option<real>>>, g: seq<seq<Option<real>>>, idx: seq<int>, symmetric: bool, row: nat, col: nat)
    requires IsSquare(g0, |idx|) && IsSquare(g, |idx|)
    requires forall k :: 0 <= k < |idx| ==> idx[k] == k
    requires row < |idx| ==> (if symmetric then row else 0) <= col <= |idx|
    requires forall i, j :: 0 <= i < |idx| && 0 <= j < |idx| ==> g[i][j] == ZeroedCell(g0, |idx|, |idx|, symmetric, row, col, i, j)
    ensures forall i, j :: 0 <= i < |idx| && 0 <= j < |idx| ==>
      SetMissingToZeroAsWritten(g, idx, symmetric, row, col)[i][j] == ZeroedCell(g0, |idx|, |idx|, symmetric, |idx|, 0, i, j)
    decreases |idx| - row, |idx| - col
  {
    var n := |idx|;
    if row >= n {
      forall i, j | 0 <= i < n && 0 <= j < n
        ensures g[i][j] == ZeroedCell(g0, n, n, symmetric, n, 0, i, j)
      {
        assert TriangleVisited(n, n, symmetric, row, col, i, j) == TriangleVisited(n, n, symmetric, n, 0, i, j);
        assert TriangleVisited(n, n, symmetric, row, col, j, i) == TriangleVisited(n, n, symmetric, n, 0, j, i);
      }
    } else if col >= n {
      var next := if symmetric then row + 1 else 0;
      forall i, j | 0 <= i < n && 0 <= j < n
        ensures g[i][j] == ZeroedCell(g0, n, n, symmetric, row + 1, next, i, j)
      {
        assert TriangleVisited(n, n, symmetric, row, col, i, j) == TriangleVisited(n, n, symmetric, row + 1, next, i, j);
        assert TriangleVisited(n, n, symmetric, row, col, j, i) == TriangleVisited(n, n, symmetric, row + 1, next, j, i);
      }
      AsWrittenIdentityFrom(g0, g, idx, symmetric, row + 1, next);
    } else {
      assert g[idx[row]][idx[col]] == g0[row][col];
      var h := if g0[row][col].None? then
          var once := g[row := g[row][col := Some(0.0)]];
          if symmetric && row != col then once[col := once[col][row := Some(0.0)]] else once
        else g;
      forall i, j | 0 <= i < n && 0 <= j < n
        ensures h[i][j] == ZeroedCell(g0, n, n, symmetric, row, col + 1, i, j)
      {
        assert TriangleVisited(n, n, symmetric, row, col + 1, i, j) ==
          (TriangleVisited(n, n, symmetric, row, col, i, j) || (i == row && j == col));
        assert TriangleVisited(n, n, symmetric, row, col + 1, j, i) ==
          (TriangleVisited(n, n, symmetric, row, col, j, i) || (j == row && i == col));
      }
      AsWrittenIdentityFrom(g0, h, idx, symmetric, row, col + 1);
    }
  }

  /**
    * With no reordering (the identity index) the original `setMissingToZero`
    * gives what the corrected one promises: every visited missing cell is
    * 0.0, every visited present one is kept, and on a symmetric matrix the
    * mirror of a zeroed cell is zeroed.
    */
  lemma SetMissingToZeroAsWrittenIdentity(g: seq<seq<Option<real>>>, idx: seq<int>, symmetric: bool)
    requires IsSquare(g, |idx|) && forall k :: 0 <= k < |idx| ==> idx[k] == k
    ensures var h := SetMissingToZeroAsWritten(g, idx, symmetric, 0, 0);
      && (forall i, j :: 0 <= i < |idx| && (if symmetric then i else 0) <= j < |idx| ==>
            h[i][j] == if g[i][j].None? then Some(0.0) else g[i][j])
      && (forall i, j :: 0 <= j < i < |idx| && symmetric ==>
            h[i][j] == if g[j][i].None? then Some(0.0) else g[i][j])
  {
    var n := |idx|;
    AsWrittenIdentityFrom(g, g, idx, symmetric, 0, 0);
    var h := SetMissingToZeroAsWritten(g, idx, symmetric, 0, 0);
    forall i, j | 0 <= i < n && 0 <= j < n
      ensures h[i][j] == ZeroedCell(g, n, n, symmetric, n, 0, i, j)
    {
    }
  }

  /**
    * The label loop of the range `submatrix`: row r of `mat` gets label
    * rowLabels[row + r] of `src`, and the first pass (r == 0) also gives
    * column c the label columnLabels[col + c].
    */
  method CopyBlockLabels(mat: ColtMatrix, src: ColtMatrix, row: int, col: int, rows: int, cols: int)
    requires mat.index == null && 0 <= row && 0 <= col
    requires mat.rowLabels != null && mat.rowLabels.Length == rows
    requires mat.columnLabels != null && mat.columnLabels.Length == cols && mat.rowLabels != mat.columnLabels
    requires forall j :: 0 <= j < cols ==> mat.columnLabels[j] == None
    requires rows > 0 ==> src.rowLabels != null && row + rows <= src.rowLabels.Length
    requires rows > 0 && cols > 0 ==> src.columnLabels != null && col + cols <= src.columnLabels.Length
    requires src.rowLabels != mat.rowLabels && src.rowLabels != mat.columnLabels
    requires src.columnLabels != mat.rowLabels && src.columnLabels != mat.columnLabels
    modifies mat.rowLabels, mat.columnLabels
    ensures mat.rowLabels[..] == if rows == 0 then [] else src.rowLabels[row..row + rows]
    ensures mat.columnLabels[..] == if rows == 0 || cols == 0 then seq(cols, _ => None) else src.columnLabels[col..col + cols]
  {
    var r := 0;
    while r < rows
      invariant 0 <= r <= rows
      invariant forall i :: 0 <= i < r ==> mat.rowLabels[i] == src.rowLabels[row + i]
      invariant forall j :: 0 <= j < cols ==> mat.columnLabels[j] == if r == 0 then None else src.columnLabels[col + j]
    {
      mat.SetRowLabel(r, src.rowLabels[r + row]);
      var c := 0;
      while c < cols
        invariant 0 <= c <= cols
        invariant forall i :: 0 <= i <= r ==> mat.rowLabels[i] == src.rowLabels[row + i]
        invariant forall j :: 0 <= j < cols ==>
          mat.columnLabels[j] == if r == 0 && c <= j then None else src.columnLabels[col + j]
      {
        if r == 0 {
          mat.SetColumnLabel(c, src.columnLabels[c + col]);
        }
        c := c + 1;
      }
      r := r + 1;
    }
    if rows > 0 {
      assert mat.rowLabels[..] == src.rowLabels[row..row + rows];
    }
    if rows > 0 && cols > 0 {
      assert mat.columnLabels[..] == src.columnLabels[col..col + cols];
    }
  }

  /** A fresh copy of the rows x cols block of `a` starting at (row, col). */
  method Block(a: array2<Option<real>>, row: int, col: int, rows: int, cols: int) returns (b: array2<Option<real>>)
    requires 0 <= row && 0 <= col && 0 <= rows && 0 <= cols
    requires row + rows <= a.Length0 && col + cols <= a.Length1
    ensures fresh(b) && b.Length0 == rows && b.Length1 == cols
    ensures forall i, j :: 0 <= i < rows && 0 <= j < cols ==> b[i, j] == a[row + i, col + j]
  {
    b := new Option<real>[rows, cols]((i, j) reads a =>
      if 0 <= i < rows && 0 <= j < cols then a[row + i, col + j] else None);
  }

  /**
    * A cell of the distance matrix once the upper-triangle loop has
    * visited every (lo, hi), lo <= hi, before (row, col): both (lo, hi) and
    * (hi, lo) hold metric(lo, hi); cells not yet visited still read 0.0.
    */
  ghost function DistanceCell(metric: (int, int) -> Option<real>, row: int, col: int, i: int, j: int): Option<real>
  {
    var lo, hi := if i <= j then i else j, if i <= j then j else i;
    if lo < row || (lo == row && hi < col) then metric(lo, hi) else Some(0.0)
  }

  /** The nested loop of `getDistanceMatrix`: every row's upper triangle, mirrored. */
  method FillDistance(mat: ColtMatrix, metric: (int, int) -> Option<real>, n: int)
    requires mat.Valid() && mat.index == null && mat.nRows == n && mat.nColumns == n
    requires forall i, j :: 0 <= i < n && 0 <= j < n ==> mat.data[i, j] == DistanceCell(metric, 0, 0, i, j)
    requires BoundsCover(mat, metric, n, 0, 0)
    modifies mat`minValue, mat`maxValue, mat.data
    ensures mat.Valid()
    ensures forall i, j :: 0 <= i <= j < n ==> mat.data[i, j] == metric(i, j) && mat.data[j, i] == metric(i, j)
    ensures forall i, j :: 0 <= i <= j < n && metric(i, j).Some? ==> mat.minValue <= metric(i, j).value <= mat.maxValue
  {
    var row := 0;
    while row < n
      invariant 0 <= row <= n
      invariant mat.Valid()
      invariant forall i, j :: 0 <= i < n && 0 <= j < n ==> mat.data[i, j] == DistanceCell(metric, row, row, i, j)
      invariant BoundsCover(mat, metric, n, row, row)
    {
      FillDistanceRow(mat, metric, n, row);
      row := row + 1;
    }
    DistanceDone(mat, metric, n);
  }

  /** Once every row is visited, each cell and its mirror hold the distance. */
  lemma DistanceDone(mat: ColtMatrix, metric: (int, int) -> Option<real>, n: int)
    requires mat.Valid() && mat.nRows == n && mat.nColumns == n
    requires forall i, j :: 0 <= i < n && 0 <= j < n ==> mat.data[i, j] == DistanceCell(metric, n, n, i, j)
    requires BoundsCover(mat, metric, n, n, n)
    ensures forall i, j :: 0 <= i <= j < n ==> mat.data[i, j] == metric(i, j) && mat.data[j, i] == metric(i, j)
    ensures forall i, j :: 0 <= i <= j < n && metric(i, j).Some? ==> mat.minValue <= metric(i, j).value <= mat.maxValue
  {
    forall i, j | 0 <= i <= j < n
      ensures mat.data[i, j] == metric(i, j) && mat.data[j, i] == metric(i, j)
    {
      assert DistanceCell(metric, n, n, i, j) == metric(i, j);
      assert DistanceCell(metric, n, n, j, i) == metric(i, j);
    }
  }

  /** The cached bounds of `mat` cover every finite distance visited before (row, col). */
  ghost predicate BoundsCover(mat: ColtMatrix, metric: (int, int) -> Option<real>, n: int, row: int, col: int)
    reads mat
  {
    && mat.minValue <= DoubleMaxValue && DoubleMinValue <= mat.maxValue
    && forall lo, hi :: 0 <= lo <= hi < n && (lo < row || (lo == row && hi < col)) && metric(lo, hi).Some? ==>
         mat.minValue <= metric(lo, hi).value <= mat.maxValue
  }

  /** One pass of `getDistanceMatrix`'s row loop: row `row`, columns row .. n-1, each written twice. */
  method FillDistanceRow(mat: ColtMatrix, metric: (int, int) -> Option<real>, n: int, row: int)
    requires mat.Valid() && mat.index == null && mat.nRows == n && mat.nColumns == n
    requires 0 <= row < n
    requires forall i, j :: 0 <= i < n && 0 <= j < n ==> mat.data[i, j] == DistanceCell(metric, row, row, i, j)
    requires BoundsCover(mat, metric, n, row, row)
    modifies mat`minValue, mat`maxValue, mat.data
    ensures mat.Valid()
    ensures forall i, j :: 0 <= i < n && 0 <= j < n ==> mat.data[i, j] == DistanceCell(metric, row + 1, row + 1, i, j)
    ensures BoundsCover(mat, metric, n, row + 1, row + 1)
  {
    var column := row;
    while column < n
      invariant row <= column <= n
      invariant mat.Valid()
      invariant forall i, j :: 0 <= i < n && 0 <= j < n ==> mat.data[i, j] == DistanceCell(metric, row, column, i, j)
      invariant BoundsCover(mat, metric, n, row, column)
    {
      FillDistanceCell(mat, metric, n, row, column);
      column := column + 1;
    }
  }

  /** One pass of `getDistanceMatrix`'s column loop: (row, column) and its mirror get metric(row, column). */
  method FillDistanceCell(mat: ColtMatrix, metric: (int, int) -> Option<real>, n: int, row: int, column: int)
    requires mat.Valid() && mat.index == null && mat.nRows == n && mat.nColumns == n
    requires 0 <= row <= column < n
    requires forall i, j :: 0 <= i < n && 0 <= j < n ==> mat.data[i, j] == DistanceCell(metric, row, column, i, j)
    requires BoundsCover(mat, metric, n, row, column)
    modifies mat`minValue, mat`maxValue, mat.data
    ensures mat.Valid()
    ensures forall i, j :: 0 <= i < n && 0 <= j < n ==> mat.data[i, j] == DistanceCell(metric, row, column + 1, i, j)
    ensures BoundsCover(mat, metric, n, row, column + 1)
  {
    mat.SetValue(row, column, metric(row, column));
    if row != column {
      mat.SetValue(column, row, metric(row, column));
    }
  }

  /**
    * The end of the run of equal values that starts at sorted position i:
    * the first later position holding a different value, or nVals.
    */
  method RunEnd(tData: array<real>, nVals: int, order: seq<int>, i: int) returns (j: int)
    requires 0 <= nVals <= tData.Length && 0 <= i < nVals
    requires IsPermutation(order, nVals)
    ensures i < j <= nVals
    ensures forall k :: i <= k < j ==> tData[order[k]] == tData[order[i]]
    ensures j < nVals ==> tData[order[j]] != tData[order[i]]
  {
    var value := tData[order[i]];
    j := i + 1;
    while j < nVals && tData[order[j]] == value
      invariant i < j <= nVals
      invariant forall k :: i <= k < j ==> tData[order[k]] == value
    {
      j := j + 1;
    }
  }

  /** Gives every sorted position in [lo, hi) the rank `value`; the other positions keep theirs. */
  method FillRun(rank: array<real>, order: seq<int>, lo: int, hi: int, value: real)
    requires IsPermutation(order, rank.Length) && 0 <= lo <= hi <= rank.Length
    modifies rank
    ensures forall k :: lo <= k < hi ==> rank[order[k]] == value
    ensures forall k :: 0 <= k < rank.Length && !(lo <= k < hi) ==> rank[order[k]] == old(rank[order[k]])
  {
    var j := lo;
    while j < hi
      invariant lo <= j <= hi
      invariant forall k :: lo <= k < j ==> rank[order[k]] == value
      invariant forall k :: 0 <= k < rank.Length && !(lo <= k < j) ==> rank[order[k]] == old(rank[order[k]])
    {
      rank[order[j]] := value;
      j := j + 1;
    }
  }

  /**
    * `getRank`'s tie loop: walking the sorted order run by run, every item
    * of a run of m equal values gets the first positional rank + (m-1)/2,
    * which is its mid-rank.
    */
  method AverageTies(tData: array<real>, nVals: int, order: seq<int>, rank: array<real>)
    requires 0 <= nVals <= tData.Length && rank.Length == nVals && rank != tData
    requires SortsValues(order, tData[..nVals])
    requires forall k :: 0 <= k < nVals ==> rank[order[k]] == k as real
    modifies rank
    ensures rank[..] == MidRanks(tData[..nVals])
  {
    ghost var vals := tData[..nVals];
    var i := 0;
    while i < nVals
      invariant 0 <= i <= nVals
      invariant 0 < i < nVals ==> vals[order[i - 1]] != vals[order[i]]
      invariant forall k :: 0 <= k < i ==> rank[order[k]] == MidRank(vals, order[k])
      invariant forall k :: i <= k < nVals ==> rank[order[k]] == k as real
      decreases nVals - i
    {
      var j := RunEnd(tData, nVals, order, i);
      var m := j - i;
      RunCounts(vals, order, i, j);
      var value := rank[order[i]] + (m - 1) as real / 2.0;
      FillRun(rank, order, i, i + m, value);
      i := i + m;
    }
    forall p | 0 <= p < nVals
      ensures rank[p] == MidRank(vals, p)
    {
      var k := Preimage(order, nVals, p);
    }
  }
}

=== FILE: CyColtMatrix.dfy ===
/**
  * `CyColtMatrix`: a `ColtMatrix` tied to a Cytoscape network, with the
  * node behind each row and each column. The node arrays may be absent
  * (null) and are allocated on first single-slot write.
  *
  * The Java class extends `ColtMatrix`; here it holds one (`matrix`) and
  * its methods read and write that matrix's fields.
  */
module CyMatrix {
  import opened Options
  import opened Cells
  import opened Permutations
  import opened Ranking
  import opened JavaArrays
  import opened Colt

  /** A network and a node, known here only by their identifiers. */
  datatype CyNetwork = CyNetwork(suid: int)
  datatype CyNode = CyNode(suid: int)

  /** A slot of a node array; `None` is a null node. */
  type Node = Option<CyNode>

  class CyColtMatrix {
    var matrix: ColtMatrix
    var network: CyNetwork
    var rowNodes: array?<Node>
    var columnNodes: array?<Node>

    ghost predicate Valid()
      reads this, matrix
    {
      matrix.Valid()
    }

    /** `CyColtMatrix(network)`: an empty matrix with no nodes. */
    constructor Empty(network: CyNetwork)
      ensures Valid() && fresh(matrix) && this.network == network
      ensures matrix.nRows == 0 && matrix.nColumns == 0
      ensures rowNodes == null && columnNodes == null
    {
      matrix := new ColtMatrix.Empty();
      this.network := network;
      rowNodes, columnNodes := null, null;
    }

    /** `CyColtMatrix(network, rows, columns)`: a fresh rows x columns matrix with no nodes. */
    constructor (network: CyNetwork, rows: nat, columns: nat)
      ensures Valid() && fresh(matrix) && fresh(matrix.data) && this.network == network
      ensures matrix.nRows == rows && matrix.nColumns == columns && matrix.index == null
      ensures forall i, j :: 0 <= i < rows && 0 <= j < columns ==> matrix.data[i, j] == Some(0.0)
      ensures matrix.rowLabels != null && fresh(matrix.rowLabels) && matrix.rowLabels[..] == seq(rows, _ => None)
      ensures matrix.columnLabels != null && fresh(matrix.columnLabels) && matrix.columnLabels[..] == seq(columns, _ => None)
      ensures matrix.rowLabels != matrix.columnLabels
      ensures matrix.maxValue == DoubleMinValue && matrix.minValue == DoubleMaxValue
      ensures !matrix.symmetric && !matrix.transposed
      ensures rowNodes == null && columnNodes == null
    {
      matrix := new ColtMatrix(rows, columns);
      this.network := network;
      rowNodes, columnNodes := null, null;
    }

    /**
      * The copy constructor behind `copy()`: a deep copy of the matrix, the
      * same network, and independent copies of the node arrays (null stays
      * null).
      */
    constructor Copy(m: CyColtMatrix)
      requires m.Valid()
      ensures Valid() && fresh(matrix) && fresh(matrix.data) && network == m.network
      ensures matrix.SameContents(m.matrix)
      ensures matrix.rowLabels != null ==> fresh(matrix.rowLabels)
      ensures matrix.columnLabels != null ==> fresh(matrix.columnLabels)
      ensures matrix.rowLabels != null && matrix.columnLabels != null ==> matrix.rowLabels != matrix.columnLabels
      ensures matrix.index != null ==> fresh(matrix.index)
      ensures GetRowNodes() == m.GetRowNodes() && GetColumnNodes() == m.GetColumnNodes()
      ensures rowNodes != null ==> fresh(rowNodes)
      ensures columnNodes != null ==> fresh(columnNodes)
    {
      var rows: array?<Node>, columns: array?<Node> := null, null;
      if m.rowNodes != null {
        rows := CopyOf(m.rowNodes, m.rowNodes.Length);
        assert Resized(m.rowNodes[..], m.rowNodes.Length) == m.rowNodes[..];
      }
      if m.columnNodes != null {
        columns := CopyOf(m.columnNodes, m.columnNodes.Length);
        assert Resized(m.columnNodes[..], m.columnNodes.Length) == m.columnNodes[..];
      }
      matrix := new ColtMatrix.Copy(m.matrix);
      network := m.network;
      rowNodes, columnNodes := rows, columns;
    }

    /** `getRowNodes`: null until the row nodes are set, then their contents in order. */
    function GetRowNodes(): (r: Option<seq<Node>>)
      reads this, rowNodes
      ensures r == None <==> rowNodes == null
      ensures rowNodes != null ==> r == Some(rowNodes[..])
    {
      if rowNodes == null then None else Some(rowNodes[..])
    }

    /** `getColumnNodes`: null until the column nodes are set, then their contents in order. */
    function GetColumnNodes(): (r: Option<seq<Node>>)
      reads this, columnNodes
      ensures r == None <==> columnNodes == null
      ensures columnNodes != null ==> r == Some(columnNodes[..])
    {
      if columnNodes == null then None else Some(columnNodes[..])
    }

    /**
      * `setRowNode`: allocates the row nodes, nRows() null slots, on first
      * use, then sets slot `row` and no other.
      */
    method SetRowNode(row: int, node: Node)
      requires 0 <= row < (if rowNodes == null then matrix.NRows() else rowNodes.Length)
      modifies this`rowNodes, rowNodes
      ensures rowNodes != null && (old(rowNodes) == null ==> fresh(rowNodes))
      ensures old(rowNodes) != null ==> rowNodes == old(rowNodes)
      ensures GetRowNodes() == Some(
        (if old(rowNodes) == null then seq(old(matrix.NRows()), _ => None) else old(rowNodes[..]))[row := node])
    {
      ghost var before := if rowNodes == null then seq(matrix.NRows(), _ => None) else rowNodes[..];
      if rowNodes == null {
        rowNodes := new Node[matrix.NRows()](_ => None);
      }
      assert rowNodes[..] == before;
      rowNodes[row] := node;
      assert rowNodes[..] == before[row := node];
    }

    /**
      * `setColumnNode`: allocates the column nodes, nColumns() null slots,
      * on first use, then sets slot `column` and no other.
      */
    method SetColumnNode(column: int, node: Node)
      requires 0 <= column < (if columnNodes == null then matrix.nColumns else columnNodes.Length)
      modifies this`columnNodes, columnNodes
      ensures columnNodes != null && (old(columnNodes) == null ==> fresh(columnNodes))
      ensures old(columnNodes) != null ==> columnNodes == old(columnNodes)
      ensures GetColumnNodes() == Some(
        (if old(columnNodes) == null then seq(old(matrix.nColumns), _ => None) else old(columnNodes[..]))[column := node])
    {
      ghost var before := if columnNodes == null then seq(matrix.nColumns, _ => None) else columnNodes[..];
      if columnNodes == null {
        columnNodes := new Node[matrix.nColumns](_ => None);
      }
      assert columnNodes[..] == before;
      columnNodes[column] := node;
      assert columnNodes[..] == before[column := node];
    }

    /**
      * `copy(Matrix)` for a `ColtMatrix` argument: a new matrix on this
      * network that SHARES the argument's store, copies its flags, bounds,
      * labels and index (absent labels leave the fresh null labels of the
      * new matrix), takes this matrix's row nodes resized to the argument's
      * row count, and its column nodes resized only when the argument has
      * more than one column.
      */
    method CopyMatrix(m: ColtMatrix) returns (r: CyColtMatrix)
      requires m.Valid()
      ensures fresh(r) && fresh(r.matrix) && r.Valid() && r.network == network
      ensures r.matrix.data == m.data && r.matrix.nRows == m.nRows && r.matrix.nColumns == m.nColumns
      ensures r.matrix.transposed == m.transposed && r.matrix.symmetric == m.symmetric
      ensures r.matrix.minValue == m.minValue && r.matrix.maxValue == m.maxValue
      ensures r.matrix.rowLabels != null && fresh(r.matrix.rowLabels)
      ensures r.matrix.rowLabels[..] == if m.rowLabels != null then m.rowLabels[..] else seq(m.nRows, _ => None)
      ensures r.matrix.columnLabels != null && fresh(r.matrix.columnLabels)
      ensures r.matrix.columnLabels[..] == if m.columnLabels != null then m.columnLabels[..] else seq(m.nColumns, _ => None)
      ensures r.matrix.rowLabels != r.matrix.columnLabels
      ensures (r.matrix.index == null) == (m.index == null)
      ensures r.matrix.index != null ==> fresh(r.matrix.index) && r.matrix.index[..] == m.index[..]
      ensures r.GetRowNodes() == if rowNodes == null then None else Some(Resized(rowNodes[..], m.nRows))
      ensures r.GetColumnNodes() ==
        if columnNodes != null && m.nColumns > 1 then Some(Resized(columnNodes[..], m.nColumns)) else None
      ensures r.rowNodes != null ==> fresh(r.rowNodes)
      ensures r.columnNodes != null ==> fresh(r.columnNodes)
    {
      r := new CyColtMatrix(network, m.nRows, m.nColumns);
      if rowNodes != null {
        r.rowNodes := CopyOf(rowNodes, m.nRows);
      }
      if columnNodes != null && m.nColumns > 1 {
        r.columnNodes := CopyOf(columnNodes, m.nColumns);
      }
      TakeOver(r.matrix, m);
    }

    /** `copy()`: a deep copy (see `Copy`). */
    method CopyDeep() returns (r: CyColtMatrix)
      requires Valid()
      ensures fresh(r) && fresh(r.matrix) && fresh(r.matrix.data) && r.Valid() && r.network == network
      ensures r.matrix.SameContents(matrix)
      ensures r.matrix.rowLabels != null ==> fresh(r.matrix.rowLabels)
      ensures r.matrix.columnLabels != null ==> fresh(r.matrix.columnLabels)
      ensures r.matrix.rowLabels != null && r.matrix.columnLabels != null ==> r.matrix.rowLabels != r.matrix.columnLabels
      ensures r.matrix.index != null ==> fresh(r.matrix.index)
      ensures r.GetRowNodes() == GetRowNodes() && r.GetColumnNodes() == GetColumnNodes()
      ensures r.rowNodes != null ==> fresh(r.rowNodes)
      ensures r.columnNodes != null ==> fresh(r.columnNodes)
    {
      r := new CyColtMatrix.Copy(this);
    }

    /**
      * `getDistanceMatrix`: the base class's distance matrix (n = nRows),
      * moved onto a matrix of this network whose row nodes, and column
      * nodes when n > 1, are this matrix's row nodes resized to n.
      */
    method GetDistanceMatrix(metric: (int, int) -> Option<real>) returns (r: CyColtMatrix)
      requires Valid() && matrix.rowLabels != null
      ensures fresh(r) && r.Valid() && r.network == network
      ensures fresh(r.matrix) && fresh(r.matrix.data)
      ensures r.matrix.nRows == matrix.nRows && r.matrix.nColumns == matrix.nRows && r.matrix.index == null
      ensures r.matrix.symmetric && !r.matrix.transposed
      ensures forall i, j :: 0 <= i <= j < matrix.nRows ==>
        r.matrix.data[i, j] == metric(i, j) && r.matrix.data[j, i] == metric(i, j)
      ensures r.matrix.rowLabels != null && r.matrix.rowLabels[..] == matrix.rowLabels[..]
      ensures r.matrix.columnLabels != null && r.matrix.columnLabels[..] == matrix.rowLabels[..]
      ensures fresh(r.matrix.rowLabels) && fresh(r.matrix.columnLabels) && r.matrix.rowLabels != r.matrix.columnLabels
      ensures forall i, j :: 0 <= i <= j < matrix.nRows && metric(i, j).Some? ==>
        r.matrix.minValue <= metric(i, j).value <= r.matrix.maxValue
      ensures r.GetRowNodes() == if rowNodes == null then None else Some(Resized(rowNodes[..], matrix.nRows))
      ensures r.GetColumnNodes() ==
        if rowNodes != null && matrix.nRows > 1 then Some(Resized(rowNodes[..], matrix.nRows)) else None
    {
      var n := matrix.nRows;
      var dist := new CyColtMatrix(network, n, n);
      if rowNodes != null {
        dist.rowNodes := CopyOf(rowNodes, n);
        dist.columnNodes := CopyOf(rowNodes, n);
      }
      var cMatrix := matrix.GetDistanceMatrix(metric);
      r := dist.CopyMatrix(cMatrix);
      if rowNodes != null {
        assert Resized(Resized(rowNodes[..], n), n) == Resized(rowNodes[..], n);
      }
    }

    /**
      * One pass of `sortByRowLabels`' row loop: row `dst` of the new label,
      * node and cell arrays takes old row `src`.
      */
    method PlaceRow(src: int, dst: int, newRowLabels: array<Label>, newRowNodes: array<Node>, newData: array2<Option<real>>,
                    ghost cells: seq<seq<Option<real>>>)
      requires Valid() && matrix.Readable() && 0 <= src < matrix.nRows && cells == matrix.LogicalRows()
      requires matrix.rowLabels != null && src < matrix.rowLabels.Length
      requires rowNodes != null && src < rowNodes.Length
      requires 0 <= dst < newRowLabels.Length && 0 <= dst < newRowNodes.Length
      requires 0 <= dst < newData.Length0 && newData.Length1 == matrix.nColumns
      requires newRowLabels != matrix.rowLabels && newRowNodes != rowNodes && newData != matrix.data
      modifies newRowLabels, newRowNodes, newData
      ensures newRowLabels[dst] == matrix.rowLabels[src] && newRowNodes[dst] == rowNodes[src]
      ensures forall k :: 0 <= k < newRowLabels.Length && k != dst ==> newRowLabels[k] == old(newRowLabels[k])
      ensures forall k :: 0 <= k < newRowNodes.Length && k != dst ==> newRowNodes[k] == old(newRowNodes[k])
      ensures forall c :: 0 <= c < matrix.nColumns ==> newData[dst, c] == cells[src][c]
      ensures forall r, c :: 0 <= r < newData.Length0 && r != dst && 0 <= c < newData.Length1 ==> newData[r, c] == old(newData[r, c])
    {
      newRowLabels[dst] := matrix.rowLabels[src];
      newRowNodes[dst] := rowNodes[src];
      CopyLogicalRow(matrix, src, newData, dst);
    }

    /**
      * One pass of the row loop as the original writes it: old row `row`
      * is scattered to row order[row], next to the rows already placed.
      */
    method ScatterStep(order: seq<int>, row: int, newRowLabels: array<Label>, newRowNodes: array<Node>, newData: array2<Option<real>>,
                       ghost cells: seq<seq<Option<real>>>)
      requires Valid() && IsPermutation(order, matrix.nRows) && matrix.Readable() && cells == matrix.LogicalRows()
      requires matrix.rowLabels != null && matrix.rowLabels.Length == matrix.nRows
      requires rowNodes != null && matrix.nRows <= rowNodes.Length
      requires newRowLabels.Length == matrix.nRows && newRowNodes.Length == matrix.nRows
      requires newData.Length0 == matrix.nRows && newData.Length1 == matrix.nColumns
      requires newRowLabels != matrix.rowLabels && newRowNodes != rowNodes && newData != matrix.data
      requires 0 <= row < matrix.nRows
      requires forall k :: 0 <= k < row ==> newRowLabels[order[k]] == matrix.rowLabels[k]
      requires forall k :: 0 <= k < row ==> newRowNodes[order[k]] == rowNodes[k]
      requires forall k, c :: 0 <= k < row && 0 <= c < matrix.nColumns ==> newData[order[k], c] == cells[k][c]
      modifies newRowLabels, newRowNodes, newData
      ensures forall k :: 0 <= k <= row ==> newRowLabels[order[k]] == matrix.rowLabels[k]
      ensures forall k :: 0 <= k <= row ==> newRowNodes[order[k]] == rowNodes[k]
      ensures forall k, c :: 0 <= k <= row && 0 <= c < matrix.nColumns ==> newData[order[k], c] == cells[k][c]
    {
      assert forall k :: 0 <= k < row ==> order[k] != order[row];
      PlaceRow(row, order[row], newRowLabels, newRowNodes, newData, cells);
    }

    /** The row loop of `sortByRowLabels` as written: every old row r is placed at row order[r]. */
    method ScatterLoop(order: seq<int>, newRowLabels: array<Label>, newRowNodes: array<Node>, newData: array2<Option<real>>,
                       ghost cells: seq<seq<Option<real>>>)
      requires Valid() && IsPermutation(order, matrix.nRows) && matrix.Readable() && cells == matrix.LogicalRows()
      requires matrix.rowLabels != null && matrix.rowLabels.Length == matrix.nRows
      requires rowNodes != null && matrix.nRows <= rowNodes.Length
      requires newRowLabels.Length == matrix.nRows && newRowNodes.Length == matrix.nRows
      requires newData.Length0 == matrix.nRows && newData.Length1 == matrix.nColumns
      requires newRowLabels != matrix.rowLabels && newRowNodes != rowNodes && newData != matrix.data
      modifies newRowLabels, newRowNodes, newData
      ensures forall k :: 0 <= k < matrix.nRows ==> newRowLabels[order[k]] == matrix.rowLabels[k]
      ensures forall k :: 0 <= k < matrix.nRows ==> newRowNodes[order[k]] == rowNodes[k]
      ensures forall k, c :: 0 <= k < matrix.nRows && 0 <= c < matrix.nColumns ==> newData[order[k], c] == cells[k][c]
    {
      var row := 0;
      while row < matrix.nRows
        invariant 0 <= row <= matrix.nRows
        invariant forall k :: 0 <= k < row ==> newRowLabels[order[k]] == matrix.rowLabels[k]
        invariant forall k :: 0 <= k < row ==> newRowNodes[order[k]] == rowNodes[k]
        invariant cells == matrix.LogicalRows()
        invariant forall k, c :: 0 <= k < row && 0 <= c < matrix.nColumns ==> newData[order[k], c] == cells[k][c]
      {
        ScatterStep(order, row, newRowLabels, newRowNodes, newData, cells);
        row := row + 1;
      }
    }

    /**
      * The row loop of `sortByRowLabels` as the original writes it: old row
      * r's label, node and logical cells are SCATTERED to row order[r] of
      * fresh arrays.
      */
    method ScatterRows(order: seq<int>) returns (newRowLabels: array<Label>, newRowNodes: array<Node>, newData: array2<Option<real>>)
      requires Valid() && IsPermutation(order, matrix.nRows)
      requires matrix.rowLabels != null && matrix.rowLabels.Length == matrix.nRows
      requires rowNodes != null && matrix.nRows <= rowNodes.Length
      requires matrix.Readable()
      ensures fresh(newRowLabels) && fresh(newRowNodes) && fresh(newData)
      ensures newData.Length0 == matrix.nRows && newData.Length1 == matrix.nColumns
      ensures newRowLabels[..] == Scatter(matrix.rowLabels[..], order)
      ensures newRowNodes[..] == Scatter(rowNodes[..matrix.nRows], order)
      ensures forall r, c :: 0 <= r < matrix.nRows && 0 <= c < matrix.nColumns ==>
        newData[order[r], c] == matrix.LogicalRows()[r][c]
    {
      var n, columns := matrix.nRows, matrix.nColumns;
      ghost var cells := matrix.LogicalRows();
      newRowLabels := new Label[n](_ => None);
      newRowNodes := new Node[n](_ => None);
      newData := new Option<real>[n, columns]((_, _) => Some(0.0));
      ScatterLoop(order, newRowLabels, newRowNodes, newData, cells);
      ScatterUnique(matrix.rowLabels[..], order, newRowLabels[..]);
      ScatterUnique(rowNodes[..n], order, newRowNodes[..]);
    }

    /**
      * `sortByRowLabels` as the original writes it, given the permutation
      * `order` its sorting helper returns for the row labels (parsed as
      * numbers or compared as strings): the scattered rows replace the row
      * labels, row nodes and store. The index, column labels and column
      * nodes are untouched.
      */
    method SortByRowLabelsAsWritten(order: seq<int>)
      requires Valid() && IsPermutation(order, matrix.nRows)
      requires matrix.rowLabels != null && matrix.rowLabels.Length == matrix.nRows
      requires rowNodes != null && matrix.nRows <= rowNodes.Length
      requires matrix.Readable()
      modifies matrix`rowLabels, matrix`data, this`rowNodes
      ensures Valid() && fresh(matrix.data) && matrix.rowLabels != null && fresh(matrix.rowLabels)
      ensures rowNodes != null && fresh(rowNodes)
      ensures matrix.rowLabels[..] == Scatter(old(matrix.rowLabels[..]), order)
      ensures rowNodes[..] == Scatter(old(rowNodes[..matrix.nRows]), order)
      ensures forall r, c :: 0 <= r < matrix.nRows && 0 <= c < matrix.nColumns ==>
        matrix.data[order[r], c] == old(matrix.LogicalRows())[r][c]
      ensures multiset(matrix.rowLabels[..]) == multiset(old(matrix.rowLabels[..]))
    {
      var newRowLabels, newRowNodes, newData := ScatterRows(order);
      ScatterMultiset(matrix.rowLabels[..], order);
      matrix.rowLabels := newRowLabels;
      rowNodes := newRowNodes;
      matrix.data := newData;
    }

    /**
      * One pass of the row loop with the permutation applied as intended:
      * new row `row` takes old row order[row], next to the rows already
      * placed.
      */
    method GatherStep(order: seq<int>, row: int, newRowLabels: array<Label>, newRowNodes: array<Node>, newData: array2<Option<real>>,
                      ghost cells: seq<seq<Option<real>>>)
      requires Valid() && matrix.Readable() && cells == matrix.LogicalRows()
      requires |order| == matrix.nRows && forall i :: 0 <= i < |order| ==> 0 <= order[i] < matrix.nRows
      requires matrix.rowLabels != null && matrix.rowLabels.Length == matrix.nRows
      requires rowNodes != null && matrix.nRows <= rowNodes.Length
      requires newRowLabels.Length == matrix.nRows && newRowNodes.Length == matrix.nRows
      requires newData.Length0 == matrix.nRows && newData.Length1 == matrix.nColumns
      requires newRowLabels != matrix.rowLabels && newRowNodes != rowNodes && newData != matrix.data
      requires 0 <= row < matrix.nRows
      requires forall k :: 0 <= k < row ==> newRowLabels[k] == matrix.rowLabels[order[k]]
      requires forall k :: 0 <= k < row ==> newRowNodes[k] == rowNodes[order[k]]
      requires forall k, c :: 0 <= k < row && 0 <= c < matrix.nColumns ==> newData[k, c] == cells[order[k]][c]
      modifies newRowLabels, newRowNodes, newData
      ensures forall k :: 0 <= k <= row ==> newRowLabels[k] == matrix.rowLabels[order[k]]
      ensures forall k :: 0 <= k <= row ==> newRowNodes[k] == rowNodes[order[k]]
      ensures forall k, c :: 0 <= k <= row && 0 <= c < matrix.nColumns ==> newData[k, c] == cells[order[k]][c]
    {
      PlaceRow(order[row], row, newRowLabels, newRowNodes, newData, cells);
    }

    /**
      * The row loop of `sortByRowLabels` with the permutation applied as
      * intended: new row r takes old row order[r]'s label, node and
      * logical cells (GATHER).
      */
    method GatherRows(order: seq<int>) returns (newRowLabels: array<Label>, newRowNodes: array<Node>, newData: array2<Option<real>>)
      requires Valid() && |order| == matrix.nRows && forall i :: 0 <= i < |order| ==> 0 <= order[i] < matrix.nRows
      requires matrix.rowLabels != null && matrix.rowLabels.Length == matrix.nRows
      requires rowNodes != null && matrix.nRows <= rowNodes.Length
      requires matrix.Readable()
      ensures fresh(newRowLabels) && fresh(newRowNodes) && fresh(newData)
      ensures newData.Length0 == matrix.nRows && newData.Length1 == matrix.nColumns
      ensures newRowLabels[..] == Gather(matrix.rowLabels[..], order)
      ensures newRowNodes[..] == Gather(rowNodes[..matrix.nRows], order)
      ensures forall r, c :: 0 <= r < matrix.nRows && 0 <= c < matrix.nColumns ==>
        newData[r, c] == matrix.LogicalRows()[order[r]][c]
    {
      var n, columns := matrix.nRows, matrix.nColumns;
      ghost var cells := matrix.LogicalRows();
      newRowLabels := new Label[n](_ => None);
      newRowNodes := new Node[n](_ => None);
      newData := new Option<real>[n, columns]((_, _) => Some(0.0));
      var row := 0;
      while row < n
        invariant 0 <= row <= n
        invariant forall k :: 0 <= k < row ==> newRowLabels[k] == matrix.rowLabels[order[k]]
        invariant forall k :: 0 <= k < row ==> newRowNodes[k] == rowNodes[order[k]]
        invariant cells == matrix.LogicalRows()
        invariant forall k, c :: 0 <= k < row && 0 <= c < columns ==> newData[k, c] == cells[order[k]][c]
      {
        GatherStep(order, row, newRowLabels, newRowNodes, newData, cells);
        row := row + 1;
      }
      GatherUnique(matrix.rowLabels[..], order, newRowLabels[..]);
      GatherUnique(rowNodes[..n], order, newRowNodes[..]);
    }

    /**
      * `sortByRowLabels` with the sorting permutation applied as intended:
      * the gathered rows replace the row labels, row nodes and store, so
      * the rows come out in ascending label order (`SortedRowsAscending`).
      * The index, column labels and column nodes are untouched.
      */
    method SortByRowLabels(order: seq<int>)
      requires Valid() && IsPermutation(order, matrix.nRows)
      requires matrix.rowLabels != null && matrix.rowLabels.Length == matrix.nRows
      requires rowNodes != null && matrix.nRows <= rowNodes.Length
      requires matrix.Readable()
      modifies matrix`rowLabels, matrix`data, this`rowNodes
      ensures Valid() && fresh(matrix.data) && matrix.rowLabels != null && fresh(matrix.rowLabels)
      ensures rowNodes != null && fresh(rowNodes)
      ensures matrix.rowLabels[..] == Gather(old(matrix.rowLabels[..]), order)
      ensures rowNodes[..] == Gather(old(rowNodes[..matrix.nRows]), order)
      ensures forall r, c :: 0 <= r < matrix.nRows && 0 <= c < matrix.nColumns ==>
        matrix.data[r, c] == old(matrix.LogicalRows())[order[r]][c]
      ensures multiset(matrix.rowLabels[..]) == multiset(old(matrix.rowLabels[..]))
    {
      var newRowLabels, newRowNodes, newData := GatherRows(order);
      GatherMultiset(matrix.rowLabels[..], order);
      matrix.rowLabels := newRowLabels;
      rowNodes := newRowNodes;
      matrix.data := newData;
    }
  }

  /**
    * The part of `copy(Matrix)` that fills the new matrix `c` from `m`:
    * the store is shared, flags and bounds are copied, and labels and
    * index are copied where `m` has them.
    */
  method TakeOver(c: ColtMatrix, m: ColtMatrix)
    requires m.Valid() && c.nRows == m.nRows && c.nColumns == m.nColumns && c.index == null
    requires c.rowLabels != null && c.columnLabels != null && c.rowLabels != c.columnLabels && c != m
    modifies c
    ensures c.Valid() && c.data == m.data && c.nRows == m.nRows && c.nColumns == m.nColumns
    ensures c.transposed == m.transposed && c.symmetric == m.symmetric
    ensures c.minValue == m.minValue && c.maxValue == m.maxValue
    ensures c.rowLabels != null && (m.rowLabels == null ==> c.rowLabels == old(c.rowLabels))
    ensures m.rowLabels != null ==> fresh(c.rowLabels) && c.rowLabels[..] == m.rowLabels[..]
    ensures c.columnLabels != null && (m.columnLabels == null ==> c.columnLabels == old(c.columnLabels))
    ensures m.columnLabels != null ==> fresh(c.columnLabels) && c.columnLabels[..] == m.columnLabels[..]
    ensures (c.index == null) == (m.index == null)
    ensures c.index != null ==> fresh(c.index) && c.index[..] == m.index[..]
    ensures c.rowLabels != c.columnLabels
  {
    ShareStore(c, m);
    CopyLabels(c, m);
  }

  /** `copy(Matrix)`'s first assignments: shared store, copied flags and bounds. */
  method ShareStore(c: ColtMatrix, m: ColtMatrix)
    requires m.Valid() && c.nRows == m.nRows && c.nColumns == m.nColumns && c != m
    modifies c`data, c`transposed, c`symmetric, c`minValue, c`maxValue
    ensures c.Valid() && c.data == m.data
    ensures c.transposed == m.transposed && c.symmetric == m.symmetric
    ensures c.minValue == m.minValue && c.maxValue == m.maxValue
  {
    c.data := m.data;
    c.transposed := m.transposed;
    c.symmetric := m.symmetric;
    c.minValue := m.minValue;
    c.maxValue := m.maxValue;
  }

  /** `copy(Matrix)`'s label and index copies, each made only where `m` has one. */
  method CopyLabels(c: ColtMatrix, m: ColtMatrix)
    requires c.rowLabels != null && c.columnLabels != null && c.rowLabels != c.columnLabels && c.index == null && c != m
    modifies c`rowLabels, c`columnLabels, c`index
    ensures c.rowLabels != null && (m.rowLabels == null ==> c.rowLabels == old(c.rowLabels))
    ensures m.rowLabels != null ==> fresh(c.rowLabels) && c.rowLabels[..] == m.rowLabels[..]
    ensures c.columnLabels != null && (m.columnLabels == null ==> c.columnLabels == old(c.columnLabels))
    ensures m.columnLabels != null ==> fresh(c.columnLabels) && c.columnLabels[..] == m.columnLabels[..]
    ensures c.index == null <==> m.index == null
    ensures c.index != null ==> fresh(c.index) && c.index[..] == m.index[..]
    ensures c.rowLabels != c.columnLabels
  {
    if m.rowLabels != null {
      c.rowLabels := CopyOfFull(m.rowLabels);
    }
    if m.columnLabels != null {
      c.columnLabels := CopyOfFull(m.columnLabels);
    }
    if m.index != null {
      c.index := CopyOfInts(m.index);
    }
  }

  /** The inner loop of `sortByRowLabels`: row `dst` of `to` takes the logical row `src` of `m`. */
  method CopyLogicalRow(m: ColtMatrix, src: int, to: array2<Option<real>>, dst: int)
    requires m.Valid() && m.Readable() && 0 <= src < m.nRows && to != m.data
    requires to.Length1 == m.nColumns && 0 <= dst < to.Length0
    modifies to
    ensures forall c :: 0 <= c < m.nColumns ==> to[dst, c] == m.LogicalRows()[src][c]
    ensures forall r, c :: 0 <= r < to.Length0 && r != dst && 0 <= c < to.Length1 ==> to[r, c] == old(to[r, c])
  {
    assert m.RowReadable(src);
    var col := 0;
    while col < m.nColumns
      invariant 0 <= col <= m.nColumns
      invariant forall c :: 0 <= c < col ==> to[dst, c] == m.DoubleValue(src, c)
      invariant forall r, c :: 0 <= r < to.Length0 && r != dst && 0 <= c < to.Length1 ==> to[r, c] == old(to[r, c])
    {
      to[dst, col] := m.DoubleValue(src, col);
      col := col + 1;
    }
    assert m.LogicalRows()[src] == m.LogicalRow(src);
  }

  /** The sort keys of a sequence of labels under `key`. */
  function Keys<T>(s: seq<T>, key: T -> real): (r: seq<real>)
    ensures |r| == |s| && forall i :: 0 <= i < |s| ==> r[i] == key(s[i])
  {
    seq(|s|, i requires 0 <= i < |s| => key(s[i]))
  }

  ghost predicate Ascending(s: seq<real>) {
    forall i, j :: 0 <= i <= j < |s| ==> s[i] <= s[j]
  }

  /**
    * Gathering by the permutation that sorts the labels' keys puts the
    * labels in ascending key order and keeps every label.
    */
  lemma SortedRowsAscending<T>(labels: seq<T>, key: T -> real, order: seq<int>)
    requires SortsValues(order, Keys(labels, key))
    ensures Ascending(Keys(Gather(labels, order), key))
    ensures multiset(Gather(labels, order)) == multiset(labels)
  {
    GatherMultiset(labels, order);
  }

  /**
    * `sortByRowLabels` (corrected) with the order that sorts the row
    * labels' keys leaves the row labels in ascending key order, and keeps
    * every label.
    */
  method SortByRowLabelsSorts(x: CyColtMatrix, order: seq<int>, key: Label -> real)
    requires x.Valid() && IsPermutation(order, x.matrix.nRows)
    requires x.matrix.rowLabels != null && x.matrix.rowLabels.Length == x.matrix.nRows
    requires x.rowNodes != null && x.matrix.nRows <= x.rowNodes.Length
    requires x.matrix.Readable()
    requires SortsValues(order, Keys(x.matrix.rowLabels[..], key))
    modifies x.matrix`rowLabels, x.matrix`data, x`rowNodes
    ensures x.matrix.rowLabels != null && Ascending(Keys(x.matrix.rowLabels[..], key))
    ensures multiset(x.matrix.rowLabels[..]) == multiset(old(x.matrix.rowLabels[..]))
  {
    ghost var before := x.matrix.rowLabels[..];
    x.SortByRowLabels(order);
    SortedRowsAscending(before, key, order);
  }

  /** [2, 0, 1] is the order that sorts the keys 2, 3, 1. */
  lemma ExampleOrderSorts()
    ensures SortsValues([2, 0, 1], [2.0, 3.0, 1.0])
  {
    var order := [2, 0, 1];
    assert IsPermutation(order, 3);
  }

  /** Scattering the labels 2, 3, 1 by [2, 0, 1] gives 3, 1, 2. */
  lemma ExampleScatter()
    ensures Scatter([Some("2"), Some("3"), Some("1")], [2, 0, 1]) == [Some("3"), Some("1"), Some("2")]
  {
    var labels: seq<Label>, order := [Some("2"), Some("3"), Some("1")], [2, 0, 1];
    assert IsPermutation(order, 3);
    var scattered := Scatter(labels, order);
    assert scattered[2] == Some("2") && scattered[0] == Some("3") && scattered[1] == Some("1");
  }

  /**
    * Numeric row labels 2, 3, 1 sort by the permutation [2, 0, 1]; the
    * original's scatter moves them to 3, 1, 2, which is not ascending.
    */
  lemma SortByRowLabelsAsWrittenCounterexample()
    ensures var labels, order := [Some("2"), Some("3"), Some("1")], [2, 0, 1];
      var key := (l: Label) => if l == Some("1") then 1.0 else if l == Some("2") then 2.0 else 3.0;
      && SortsValues(order, Keys(labels, key))
      && Scatter(labels, order) == [Some("3"), Some("1"), Some("2")]
      && !Ascending(Keys(Scatter(labels, order), key))
  {
    var labels: seq<Label>, order := [Some("2"), Some("3"), Some("1")], [2, 0, 1];
    var key := (l: Label) => if l == Some("1") then 1.0 else if l == Some("2") then 2.0 else 3.0;
    assert Keys(labels, key) == [2.0, 3.0, 1.0];
    ExampleOrderSorts();
    ExampleScatter();
    var k := Keys([Some("3"), Some("1"), Some("2")], key);
    assert k[0] == 3.0 && k[1] == 1.0;
  }
}

=== FILE: JavaArrays.dfy ===
/**
  * The behaviour of `java.util.Arrays.copyOf` on the arrays the matrix
  * classes copy: a fresh array of the requested length holding the first
  * items of the original, padded with nulls.
  */
module JavaArrays {
  import opened Options

  /** The first `n` items of `s`, padded with nulls. */
  function Resized<T>(s: seq<Option<T>>, n: nat): (r: seq<Option<T>>)
    ensures |r| == n
    ensures forall i :: 0 <= i < n && i < |s| ==> r[i] == s[i]
    ensures forall i :: |s| <= i < n ==> r[i] == None
  {
    seq(n, i requires 0 <= i < n => if i < |s| then s[i] else None)
  }

  method CopyOf<T>(a: array<Option<T>>, n: nat) returns (b: array<Option<T>>)
    ensures fresh(b)
    ensures b[..] == Resized(a[..], n)
  {
    b := new Option<T>[n](i reads a => if 0 <= i < a.Length then a[i] else None);
  }

  /** `Arrays.copyOf(a, a.length)`: a fresh array with the same items. */
  method CopyOfFull<T>(a: array<Option<T>>) returns (b: array<Option<T>>)
    ensures fresh(b)
    ensures b[..] == a[..]
  {
    b := CopyOf(a, a.Length);
    assert Resized(a[..], a.Length) == a[..];
  }

  method CopyOfInts(a: array<int>) returns (b: array<int>)
    ensures fresh(b)
    ensures b[..] == a[..]
  {
    b := new int[a.Length](i reads a => if 0 <= i < a.Length then a[i] else 0);
  }
}

=== FILE: Options.dfy ===
/**
  * Nullable values of the Java source. `None` stands for a Java `null`
  * reference, and, for matrix cells, for the `Double.NaN` marker that the
  * matrix uses to mean "missing".
  */
module Options {
  datatype Option<+T> = None | Some(value: T)
}

=== FILE: Permutations.dfy ===
/**
  * Index permutations as the sorting helper of the matrix package returns
  * them (`order[i]` is the original position of the i-th smallest item),
  * and the counting facts needed to reason about them: the cardinality of
  * integer ranges, of injective images, and the multiset of a permuted
  * sequence.
  */
module Permutations {

  /** `p` lists each of the positions 0 .. n-1 exactly once. */
  ghost predicate IsPermutation(p: seq<int>, n: int) {
    && |p| == n
    && (forall i :: 0 <= i < n ==> 0 <= p[i] < n)
    && (forall i, j :: 0 <= i < n && 0 <= j < n && i != j ==> p[i] != p[j])
  }

  /** The sequence whose i-th item is `s[p[i]]`. */
  function Gather<T>(s: seq<T>, p: seq<int>): (r: seq<T>)
    requires forall i :: 0 <= i < |p| ==> 0 <= p[i] < |s|
    ensures |r| == |p|
    ensures forall i :: 0 <= i < |p| ==> r[i] == s[p[i]]
  {
    seq(|p|, i requires 0 <= i < |p| => s[p[i]])
  }

  /** `Gather` is the only sequence that holds `s[p[i]]` at position i. */
  lemma GatherUnique<T>(s: seq<T>, p: seq<int>, r: seq<T>)
    requires forall i :: 0 <= i < |p| ==> 0 <= p[i] < |s|
    requires |r| == |p| && forall i :: 0 <= i < |p| ==> r[i] == s[p[i]]
    ensures r == Gather(s, p)
  {
  }

  /** The first position of `k` in `p`, or |p| when `k` does not occur. */
  function IndexOf(p: seq<int>, k: int): (i: int)
    ensures 0 <= i <= |p|
    ensures i < |p| ==> p[i] == k
    ensures forall j :: 0 <= j < i ==> p[j] != k
  {
    if p == [] then 0
    else if p[0] == k then 0
    else 1 + IndexOf(p[1..], k)
  }

  /** The sequence that holds `s[i]` at position `p[i]`: the inverse of `Gather`. */
  function Scatter<T>(s: seq<T>, p: seq<int>): (r: seq<T>)
    requires IsPermutation(p, |s|)
    ensures |r| == |s|
    ensures forall i :: 0 <= i < |s| ==> r[p[i]] == s[i]
  {
    var r := seq(|s|, q requires 0 <= q < |s| => if IndexOf(p, q) < |s| then s[IndexOf(p, q)] else s[q]);
    assert forall i :: 0 <= i < |s| ==> IndexOf(p, p[i]) == i;
    r
  }

  /** Gathering by `p` undoes scattering by `p`. */
  lemma GatherScatter<T>(s: seq<T>, p: seq<int>)
    requires IsPermutation(p, |s|)
    ensures Gather(Scatter(s, p), p) == s
  {
  }

  /** The positions of `s` that are sent somewhere by `p`. */
  ghost function Image(p: seq<int>, s: set<int>): set<int>
    requires forall i :: i in s ==> 0 <= i < |p|
  {
    set i | i in s :: p[i]
  }

  /** The integers lo .. hi-1. */
  ghost function Range(lo: int, hi: int): (r: set<int>)
    ensures forall k :: k in r <==> lo <= k < hi
    ensures lo <= hi ==> |r| == hi - lo
    decreases hi - lo
  {
    if lo >= hi then {} else Range(lo, hi - 1) + {hi - 1}
  }

  /**
    * An injective map preserves the size of the set it is applied to
    * (by induction on a bound `hi` of the set's elements).
    */
  lemma {:induction false} ImageCard(p: seq<int>, s: set<int>, hi: int)
    requires hi <= |p|
    requires forall i :: i in s ==> 0 <= i < hi
    requires forall i, j :: i in s && j in s && i != j ==> p[i] != p[j]
    ensures |Image(p, s)| == |s|
    decreases hi
  {
    if hi <= 0 {
      forall i | i in s
        ensures false
      {
      }
    } else if hi - 1 in s {
      var rest := s - {hi - 1};
      ImageCard(p, rest, hi - 1);
      assert Image(p, s) == Image(p, rest) + {p[hi - 1]};
      assert p[hi - 1] !in Image(p, rest);
    } else {
      ImageCard(p, s, hi - 1);
    }
  }

  lemma SubsetCard(a: set<int>, b: set<int>)
    requires a <= b
    ensures |b| == |a| + |b - a|
  {
    assert b == a + (b - a);
  }

  /** Every position 0 .. n-1 is hit by a permutation (pigeonhole). */
  lemma Preimage(p: seq<int>, n: int, k: int) returns (i: int)
    requires IsPermutation(p, n)
    requires 0 <= k < n
    ensures 0 <= i < n && p[i] == k
  {
    PermutationOnto(p, n, k);
    i :| 0 <= i < n && p[i] == k;
  }

  lemma PermutationOnto(p: seq<int>, n: int, k: int)
    requires IsPermutation(p, n)
    requires 0 <= k < n
    ensures exists i :: 0 <= i < n && p[i] == k
  {
    PermutationImage(p, n);
    OntoFromImage(p, n, k);
  }

  /** A position in the image of 0 .. n-1 has a preimage there. */
  lemma OntoFromImage(p: seq<int>, n: int, k: int)
    requires n <= |p| && Image(p, Range(0, n)) == Range(0, n)
    requires 0 <= k < n
    ensures exists i :: 0 <= i < n && p[i] == k
  {
    var all := Range(0, n);
    assert k in Image(p, all);
    var i :| i in all && p[i] == k;
    assert 0 <= i < n;
  }

  /** A permutation maps 0 .. n-1 into 0 .. n-1. */
  lemma PermutationImageWithin(p: seq<int>, n: int)
    requires IsPermutation(p, n)
    ensures Image(p, Range(0, n)) <= Range(0, n)
  {
    forall y | y in Image(p, Range(0, n))
      ensures y in Range(0, n)
    {
      var j :| j in Range(0, n) && p[j] == y;
    }
  }

  /** A subset as large as its superset is the superset. */
  lemma SubsetSameCard(a: set<int>, b: set<int>)
    requires a <= b && |a| == |b|
    ensures a == b
  {
    SubsetCard(a, b);
    var missing := b - a;
    assert missing == {};
  }

  /** A permutation maps 0 .. n-1 onto 0 .. n-1. */
  lemma PermutationImage(p: seq<int>, n: int)
    requires IsPermutation(p, n)
    ensures Image(p, Range(0, n)) == Range(0, n)
  {
    ImageCard(p, Range(0, n), n);
    PermutationImageWithin(p, n);
    SubsetSameCard(Image(p, Range(0, n)), Range(0, n));
  }

  /** The number of occurrences of `x` in `s`, counted by positions. */
  lemma {:induction false} OccurrencesCard<T>(s: seq<T>, x: T)
    ensures multiset(s)[x] == |set k | 0 <= k < |s| && s[k] == x|
  {
    if s != [] {
      var init := s[..|s| - 1];
      OccurrencesCard(init, x);
      assert s == init + [s[|s| - 1]];
      if s[|s| - 1] == x {
        assert (set k | 0 <= k < |s| && s[k] == x)
            == (set k | 0 <= k < |init| && init[k] == x) + {|s| - 1};
      } else {
        assert (set k | 0 <= k < |s| && s[k] == x)
            == (set k | 0 <= k < |init| && init[k] == x);
      }
    }
  }

  /** Rearranging a sequence by a permutation keeps its multiset. */
  lemma GatherMultiset<T>(s: seq<T>, p: seq<int>)
    requires IsPermutation(p, |s|)
    ensures multiset(Gather(s, p)) == multiset(s)
  {
    var g := Gather(s, p);
    forall x: T
      ensures multiset(g)[x] == multiset(s)[x]
    {
      var inG := set i | 0 <= i < |g| && g[i] == x;
      var inS := set k | 0 <= k < |s| && s[k] == x;
      OccurrencesCard(g, x);
      OccurrencesCard(s, x);
      ImageCard(p, inG, |s|);
      forall k | k in inS
        ensures k in Image(p, inG)
      {
        var i := Preimage(p, |s|, k);
        assert i in inG;
      }
      assert Image(p, inG) == inS;
    }
  }

  /** `Scatter` is the only sequence that holds `s[i]` at position `p[i]`. */
  lemma ScatterUnique<T>(s: seq<T>, p: seq<int>, r: seq<T>)
    requires IsPermutation(p, |s|) && |r| == |s|
    requires forall i :: 0 <= i < |s| ==> r[p[i]] == s[i]
    ensures r == Scatter(s, p)
  {
    forall q | 0 <= q < |s|
      ensures r[q] == Scatter(s, p)[q]
    {
      var i := Preimage(p, |s|, q);
    }
  }

  /** Scattering by a permutation keeps every item and its multiplicity. */
  lemma ScatterMultiset<T>(s: seq<T>, p: seq<int>)
    requires IsPermutation(p, |s|)
    ensures multiset(Scatter(s, p)) == multiset(s)
  {
    var r := Scatter(s, p);
    GatherMultiset(r, p);
    GatherScatter(s, p);
  }
}

=== FILE: Ranking.dfy ===
/**
  * Mid-ranks: the rank convention of the matrix's rank query. Items are
  * ranked 0 .. n-1 in ascending order, and every item of a run of equal
  * items gets the mean of the run's positional ranks.
  *
  * The reference definition below does not sort: the mid-rank of an item
  * is the number of strictly smaller items plus half the number of OTHER
  * items equal to it. `RunCounts` connects it to the sorted order that the
  * rank query walks.
  */
module Ranking {
  import opened Permutations

  /** Positions of `vals` holding a value strictly below `v`. */
  ghost function Below(vals: seq<real>, v: real): set<int> {
    set k | 0 <= k < |vals| && vals[k] < v
  }

  /** Positions of `vals` holding exactly `v`. */
  ghost function Tied(vals: seq<real>, v: real): set<int> {
    set k | 0 <= k < |vals| && vals[k] == v
  }

  ghost function MidRank(vals: seq<real>, k: int): real
    requires 0 <= k < |vals|
  {
    |Below(vals, vals[k])| as real + (|Tied(vals, vals[k])| - 1) as real / 2.0
  }

  ghost function MidRanks(vals: seq<real>): (r: seq<real>)
    ensures |r| == |vals|
    ensures forall k :: 0 <= k < |vals| ==> r[k] == MidRank(vals, k)
  {
    seq(|vals|, k requires 0 <= k < |vals| => MidRank(vals, k))
  }

  /** `order` lists the positions of `vals` in ascending order of value. */
  ghost predicate SortsValues(order: seq<int>, vals: seq<real>) {
    && IsPermutation(order, |vals|)
    && forall i, j :: 0 <= i <= j < |vals| ==> vals[order[i]] <= vals[order[j]]
  }

  /** Smaller and equal items are disjoint positions, and `k` is among the equal ones. */
  lemma CountsWithin(vals: seq<real>, k: int)
    requires 0 <= k < |vals|
    ensures |Below(vals, vals[k])| + |Tied(vals, vals[k])| <= |vals|
    ensures 1 <= |Tied(vals, vals[k])|
  {
    var below, tied := Below(vals, vals[k]), Tied(vals, vals[k]);
    forall x | x in below * tied
      ensures false
    {
    }
    assert below * tied == {};
    forall x | x in below + tied
      ensures x in Range(0, |vals|)
    {
    }
    SubsetCard(below + tied, Range(0, |vals|));
    assert k in tied;
    SubsetCard({k}, tied);
  }

  /** Every mid-rank lies between 0 and n-1. */
  lemma MidRankBounds(vals: seq<real>, k: int)
    requires 0 <= k < |vals|
    ensures 0.0 <= MidRank(vals, k) <= (|vals| - 1) as real
  {
    CountsWithin(vals, k);
  }

  /** A strictly smaller value gets a strictly smaller mid-rank. */
  lemma MidRankStrictlyMonotonic(vals: seq<real>, a: int, b: int)
    requires 0 <= a < |vals| && 0 <= b < |vals|
    requires vals[a] < vals[b]
    ensures MidRank(vals, a) < MidRank(vals, b)
  {
    var belowA, tiedA := Below(vals, vals[a]), Tied(vals, vals[a]);
    var belowB := Below(vals, vals[b]);
    forall x | x in belowA * tiedA
      ensures false
    {
    }
    assert belowA * tiedA == {};
    forall x | x in belowA + tiedA
      ensures x in belowB
    {
    }
    SubsetCard(belowA + tiedA, belowB);
    CountsWithin(vals, a);
    CountsWithin(vals, b);
  }

  /** The items below the value at sorted position i are those sorted before it. */
  lemma BelowIsSortedPrefix(vals: seq<real>, order: seq<int>, i: int)
    requires SortsValues(order, vals)
    requires 0 <= i < |vals|
    requires 0 < i ==> vals[order[i - 1]] != vals[order[i]]
    ensures Below(vals, vals[order[i]]) == Image(order, Range(0, i))
  {
    var v := vals[order[i]];
    forall k | k in Below(vals, v)
      ensures k in Image(order, Range(0, i))
    {
      var p := Preimage(order, |vals|, k);
    }
    forall k | k in Image(order, Range(0, i))
      ensures k in Below(vals, v)
    {
      var p :| p in Range(0, i) && order[p] == k;
    }
  }

  /** The items equal to the value of a maximal sorted run are those of the run. */
  lemma TiedIsSortedRun(vals: seq<real>, order: seq<int>, i: int, j: int)
    requires SortsValues(order, vals)
    requires 0 <= i < j <= |vals|
    requires forall p :: i <= p < j ==> vals[order[p]] == vals[order[i]]
    requires 0 < i ==> vals[order[i - 1]] != vals[order[i]]
    requires j < |vals| ==> vals[order[j]] != vals[order[i]]
    ensures Tied(vals, vals[order[i]]) == Image(order, Range(i, j))
  {
    var v := vals[order[i]];
    forall k | k in Tied(vals, v)
      ensures k in Image(order, Range(i, j))
    {
      var p := Preimage(order, |vals|, k);
    }
    forall k | k in Image(order, Range(i, j))
      ensures k in Tied(vals, v)
    {
      var p :| p in Range(i, j) && order[p] == k;
    }
  }

  /**
    * For a sorting order and a maximal run order[i..j) of equal values,
    * exactly i items are smaller than the run's value and j - i equal it,
    * so the run's mid-rank is i + (j - i - 1) / 2.
    */
  lemma RunCounts(vals: seq<real>, order: seq<int>, i: int, j: int)
    requires SortsValues(order, vals)
    requires 0 <= i < j <= |vals|
    requires forall p :: i <= p < j ==> vals[order[p]] == vals[order[i]]
    requires 0 < i ==> vals[order[i - 1]] != vals[order[i]]
    requires j < |vals| ==> vals[order[j]] != vals[order[i]]
    ensures |Below(vals, vals[order[i]])| == i
    ensures |Tied(vals, vals[order[i]])| == j - i
  {
    BelowIsSortedPrefix(vals, order, i);
    ImageCard(order, Range(0, i), i);
    TiedIsSortedRun(vals, order, i, j);
    ImageCard(order, Range(i, j), j);
  }

  /** The worked example of the rank query's convention: [5, 1, 1, 3] ranks as [3, 0.5, 0.5, 2]. */
  lemma MidRanksExample()
    ensures MidRanks([5.0, 1.0, 1.0, 3.0]) == [3.0, 0.5, 0.5, 2.0]
  {
    var vals := [5.0, 1.0, 1.0, 3.0];
    var order := [1, 2, 3, 0];
    assert SortsValues(order, vals);
    RunCounts(vals, order, 0, 2);
    RunCounts(vals, order, 2, 3);
    RunCounts(vals, order, 3, 4);
  }
}
